=== FILE: README.md ===
# ShopPWA offline layer and cart, in Dafny

A verified model of the two pieces of sequential logic in the ShopPWA storefront:

- **The service worker** (`sw.js`). Every intercepted GET request is classified as static, image, API or other. It is then served by cache-first, network-first or stale-while-revalidate over one of three versioned cache partitions. The model also covers install (pre-caching the app shell with `addAll`), activate (deleting stale cache generations, then claiming clients), the `SKIP_WAITING`/`GET_VERSION` control messages, replay of pending orders on background sync, the cart post, the periodic product-list refresh, push notifications merged over defaults, and notification-click routing.
- **The cart bookkeeping** (`app.js`): `addToCart`, `removeFromCart`, `updateQuantity`, the header item count, checkout, and the load-or-default of the product list and cart at start-up.

Each event is one sequential step over immutable values. Cache Storage is a sequence of named partitions in creation order (`CacheStorage`). The network is an oracle argument: a `FetchOutcome` for one request, or a function from URL (or POST index) to outcome. A strategy returns what the promise passed to `respondWith` settles to (a response, `undefined`, or a rejection), the storage after the step, and whether `fetch` was called. The worker's origin is a parameter; root-relative paths such as `/index.html` are resolved against it. Local storage slots are parameters too, whose content is absent, unparseable, or a parsed value.

"ok" means a status in 200–299, the "ok status" of the WHATWG Fetch Standard. The offline API response uses status 503 (section 15.6.4 of RFC 9110).

Behaviours of the code the model keeps, which a reader might not expect:

- Only the URL decides whether a request is static; the destination does not. Image extensions and API markers are matched anywhere in the URL (`includes`), not only as suffixes.
- Cache-first and network-first store a network response only when it is ok. A non-ok response is returned to the caller unchanged and is not treated as a failure.
- A failed install is logged and swallowed. It only skips the `skipWaiting` request.
- `GET_VERSION` replies `shoppwa-v1`. No partition has that name, and activation deletes any cache that does.
- Removing a replayed order removes every stored order with the same id.

Files: `wrappers.dfy`, `strings.dfy` (JS `startsWith`/`endsWith`/`includes`), `http.dfy`, `local_storage.dfy` (a parsed `localStorage` item), `generations.dfy` (cache names and manifest), `cache_storage.dfy`, `classifier.dfy`, `strategies.dfy`, `fetch_handler.dfy`, `lifecycle.dfy`, `background_sync.dfy`, `notifications.dfy`, `offline.dfy` (properties across events), `catalog.dfy`, `cart.dfy`, `startup.dfy`.

## Model

| member | source | states |
|---|---|---|
| Classifier.OrderMattersOnlyForOverlaps | sw.js:74-86 | when at most one of the static, image and API tests passes, testing them in any order that contains all three picks the same category as the code's order |
| Classifier.DestinationMattersOnlyForImages | sw.js:199-220 | the method never affects the category, and the destination affects it only by being `image` |
| Classifier.ManifestUrlIsStatic | sw.js:199-204 | any URL ending in a manifest entry is static, whatever its destination |
| Classifier.TrailingSlashIsStatic | sw.js:8-9 | since `/` is a manifest entry, every URL with a trailing slash is static |
| Classifier.JsonIsStatic | sw.js:202 | every URL containing `.json` contains `.js`, so it is routed as a static file |
| Classifier.ImageDestinationIsImage | sw.js:206-207 | a non-static URL requested for an image destination goes to the image branch |
| Classifier.ApiPathIsApi | sw.js:216-217 | a URL containing `/api/` that is neither static nor an image is an API request |
| Strategies.OfflineFallback | sw.js:109-126 | a document request gets the first cached copy of `/index.html`, or `undefined` when there is none; otherwise an image request gets exactly the SVG placeholder response, status 200 with `Content-Type: image/svg+xml`; anything else is rejected |
| Strategies.CacheFirst | sw.js:90-127 | the partition is opened; a hit returns the stored entry without calling fetch and changes nothing; a miss returns the network response unchanged and stores exactly it, under the request URL, only when ok; a network error gives the offline fallback |
| Strategies.NetworkFirst | sw.js:130-167 | the network response is returned and stored iff ok, and a non-ok one leaves storage untouched; on a network error the cached entry is returned, else for an API URL exactly the 503 response with `Content-Type: application/json` and the `{"error":"Offline",...}` body, else a rejection |
| Strategies.StaleWhileRevalidate | sw.js:170-196 | fetch is always called; a hit returns the stored entry; a miss returns the network response, or `undefined` when the fetch fails; only an ok response is stored |
| Strategies.CacheFirstHitIgnoresNetwork | sw.js:92-98 | on a hit the whole result of cache-first is the same for every network outcome |
| Strategies.StaleHitIgnoresNetworkAnswer | sw.js:187-191 | on a hit the answer of stale-while-revalidate is the same for every network outcome |
| FetchHandler.HandleFetch | sw.js:64-87 | a request is left to the browser exactly when its method is not GET; a GET request is served under its classification, static requests cache-first over the static partition, images cache-first over the image partition, API requests network-first and everything else stale-while-revalidate, both over the dynamic partition |
| FetchHandler.ApiAnswersNetworkFirst | sw.js:130-141 | whenever the network answers, an API request gets the network response, even when an entry is stored |
| FetchHandler.OtherAnswersStale | sw.js:170-196 | any other GET request gets the stored dynamic entry whatever the network does; a miss gets the network response, or `undefined` offline |
| FetchHandler.CacheFirstRouteMiss | sw.js:99-126 | a static or image request missing from its partition gets the network response, or offline the fallback over the opened partition |
| FetchHandler.WritesConfinedToRoute | sw.js:74-86 | a GET request changes at most the entry for its own URL in its category's partition (static, images, or dynamic for api and other), and only to an ok network response |
| FetchHandler.CreatesOnlyRoutePartition | sw.js:74-86 | the only partition a GET request can create is its category's |
| FetchHandler.OnlineAlwaysAnswers | sw.js:74-86 | when the network answers, every GET request gets a response |
| FetchHandler.WarmEntryAnswersOffline | sw.js:74-86 | offline, a request whose entry is stored in its category's partition is answered with that entry, on every route |
| FetchHandler.OfflineApiAnswered | sw.js:142-163 | offline, an API request always gets a response: the cached one, or the 503 offline response when nothing is cached |
| FetchHandler.FetchSkippedOnlyOnCacheFirstHit | sw.js:74-98 | fetch is skipped exactly for a static or image request whose entry is already stored |
| Lifecycle.ManifestUrlsDistinct | sw.js:8-16 | the seven resolved pre-cache URLs are pairwise distinct, which `addAll` requires of its batch |
| Generations.StaticFilesDistinct | sw.js:8-16 | no manifest entry is listed twice |
| Generations.ShellIsPrecached | sw.js:8-16 | `/index.html`, the page served to offline documents, is a manifest entry |
| Offline.ManifestUrlsAreStatic | sw.js:8-16 | every resolved pre-cache URL is routed to the static branch, whatever its destination |
| CacheStorage.OpenPutKeepDistinct | sw.js:24 | `caches.open` and `cache.put` never create a second cache under an existing name |
| Lifecycle.PutAll | sw.js:26 | a successful `addAll` stores each listed URL's response in the partition and changes no other entry or partition name |
| Lifecycle.Install | sw.js:19-36 | the static partition is opened; `skipWaiting` is requested iff every manifest fetch is ok; then every manifest URL holds its response; otherwise no entry changes |
| Lifecycle.InstalledManifestEntry | sw.js:22-30 | after a complete install each manifest path, resolved against the origin, holds the ok response fetched for it |
| Lifecycle.InstallIdempotent | sw.js:22-35 | installing again with the same network outcomes gives the same names, the same entries and the same `skipWaiting` decision |
| Lifecycle.ReinstallKeepsShellKeys | sw.js:22-35 | after a complete install, installing again under any network outcomes leaves the static partition with exactly the same keys |
| Lifecycle.StaleNames | sw.js:46-53 | the names deleted are exactly the prior names that are none of the three current partition names |
| Lifecycle.Retain | sw.js:43-55 | after the deletions the surviving names are exactly the prior current ones, with their entries unchanged |
| Lifecycle.Activate | sw.js:39-61 | surviving names are exactly the prior names equal to a current partition name, with unchanged entries; every stale name gets a delete; the last effect, after all deletes, is the single client claim |
| Lifecycle.RetainKeepsDistinct | sw.js:43-55 | deleting the stale caches never leaves two caches with one name |
| Lifecycle.ActivateKeepsDistinct | sw.js:39-61 | storage whose cache names are distinct still has distinct names after activation |
| Lifecycle.ActivateDeletesVersionMarkerCache | sw.js:2-5 | a cache named `shoppwa-v1` never survives activation, and is deleted if it existed |
| Lifecycle.ActivateKeepsInstalledShell | sw.js:43-59 | activation after a complete install keeps every manifest entry's response |
| Lifecycle.HandleMessage | sw.js:405-415 | `skipWaiting` is requested iff the type is `SKIP_WAITING`; `GET_VERSION` replies `shoppwa-v1` on the first port, and throws when there is no port; other messages get no reply |
| BackgroundSync.KeepPending | sw.js:318 | the orders kept are exactly those whose id is not removed, and never more orders than before |
| BackgroundSync.KeepPendingCounts | sw.js:318 | each order whose id is not removed is kept exactly as many times as it occurs, and the others not at all |
| BackgroundSync.KeepPendingAppend | sw.js:318 | filtering a concatenation is concatenating the filtered parts, so the kept orders stay in their original order |
| BackgroundSync.KeepPendingNone | sw.js:318 | filtering by no id keeps the list unchanged |
| BackgroundSync.RemovePendingOrder | sw.js:315-323 | the store is rewritten to hold exactly the previously read orders with another id |
| BackgroundSync.RemovePendingCounts | sw.js:315-319 | the rewritten store holds each read order of another id exactly as many times as it was read, and none with the removed id |
| BackgroundSync.KeepPendingTwice | sw.js:315-319 | removing one id after a set of ids is the same as removing the union, so successive removals compose |
| BackgroundSync.SyncOrders | sw.js:236-274 | every order of the start-of-replay snapshot is posted once, in order; with no ok POST the store is unchanged; otherwise it holds the snapshot minus every order sharing an id with an acknowledged one, in original order; one notification per acknowledged order, in order; when the store held a parsed list, the store after replay is that filter in every case, acknowledged orders or not |
| BackgroundSync.ReplayOne | sw.js:243-266 | one order's step keeps the replay state: an acknowledged POST removes its id and adds one notification; any other outcome changes neither the store nor the notifications |
| BackgroundSync.ReplayKeepsExactlyUnacked | sw.js:254-256 | after replay an order of the snapshot is still pending iff no acknowledged order has its id |
| BackgroundSync.SingleOrderReplay | sw.js:254-256 | after replaying one order, the store is `removePendingOrder` of that order's id when its POST was ok, and unchanged otherwise |
| BackgroundSync.SyncCart | sw.js:277-301 | the cart is posted iff the stored cart parses to a non-empty list, and then exactly that list is posted |
| BackgroundSync.SyncJobs | sw.js:223-233 | the orders replay runs iff the tag is `background-sync-orders`, the cart post iff it is `background-sync-cart`, and at most one of them |
| BackgroundSync.PeriodicSync | sw.js:418-445 | only a `content-sync` with an ok response whose body reads as JSON changes storage: it opens the dynamic partition, creates no other, and changes only its `/api/products` entry, to the serialized `products` field as text, or to an empty status-200 response with no headers when the field is absent |
| Notifications.PushFields | sw.js:338-353 | the notification data has the default keys plus the payload's; each payload key overrides its default; no payload or an unparseable one gives exactly the defaults |
| Notifications.PushNotice | sw.js:355-360 | each shown field is the payload's value when it has one, else the default |
| Notifications.NoPayloadShowsDefaults | sw.js:338-353 | with no payload, an unparseable one, or one that sets none of the five fields, the notification shows exactly the default title, body, icon, badge and tag |
| Notifications.FirstAppClient | sw.js:389-393 | the client chosen is the first in order whose URL contains the origin, and none is chosen iff there is none |
| Notifications.NotificationClick | sw.js:378-402 | the `view` action or the default click focuses the first app window, or opens `/` when none is open; any other action does nothing more |
| Catalog.ProductIndex | app.js:171 | the product found is the first with the requested id, and none is found iff no product has it |
| Cart.ItemIndex | app.js:174 | the cart line found is the first with the requested id, and none is found iff no line has it |
| Cart.AddToCart | app.js:170-197 | an unknown product id leaves the cart unchanged; an id in the cart adds one to that line only, and every other line and the length are unchanged; a new id appends one line of quantity 1 at the end |
| Cart.RemoveKeepsOthers | app.js:200-201 | the lines `removeFromCart` keeps are exactly those with another id |
| Cart.RemoveFromCartAppend | app.js:201 | removing from a concatenation is concatenating the removals, so for every cart, duplicate ids or not, the kept lines stay in their original order |
| Cart.UpdateQuantity | app.js:208-221 | a missing id is a no-op; a non-positive new quantity removes the id; otherwise only that line's quantity becomes the sum and every other line is unchanged |
| Cart.ItemCountAppend | app.js:279 | the item count of two carts joined is the sum of their counts |
| Cart.ItemCountReplace | app.js:279 | replacing one line changes the count by the difference of the quantities |
| Cart.ValidCountCoversLines | app.js:279 | with every quantity at least 1, the count is at least the number of lines |
| Cart.RemoveIsPositionDelete | app.js:201 | with unique ids, removing a line's id deletes exactly that position, preserving the order of the rest |
| Cart.RemoveAbsent | app.js:201 | removing an id no line carries leaves the cart unchanged |
| Cart.AddKeepsValid | app.js:174-183 | adding keeps ids unique and every quantity at least 1 |
| Cart.AddCountsOne | app.js:174-183 | a successful add raises the item count by exactly 1 |
| Cart.AddIds | app.js:174-183 | a successful add leaves the set of ids in the cart as before plus the added id |
| Cart.RemoveKeepsValid | app.js:200-201 | removing keeps the cart valid, leaves no line with that id, and lowers the count by that line's quantity |
| Cart.UpdateKeepsValid | app.js:208-221 | an update keeps the cart valid, and changes the count by `change` when the line stays, or by minus its quantity when it goes |
| Cart.Checkout | app.js:285-311 | an empty cart is refused and unchanged; a declined confirmation keeps the cart; an order is placed iff the cart is non-empty and confirmed, and then the cart is empty |
| Cart.PlacedOrderZeroesCount | app.js:306-309 | after a placed order the item count is 0 |
| Startup.InitializeApp | app.js:70-85 | with no saved products, the products are the sample list and it is written back; a saved list is used as it is and not written; unparseable product text throws before anything is set, leaving products and cart empty; unparseable cart text throws after the products are set and leaves the cart empty; the saved cart is used when it parses |
| Startup.RestartReadsPersisted | app.js:75-80 | a restart that reads back the sample list written on a fresh start ends in the same products, cart and outcome, and writes nothing |
| Startup.SampleIdsDistinct | app.js:8-57 | the sample catalogue holds six products with ids 1 to 6 in order |
| Startup.FreshStartAddsSample | app.js:75-80 | on a fresh start, adding any sample id gives a one-line cart of that product with quantity 1 |
| Offline.StaticHitOffline | sw.js:74-98 | offline, a static URL stored in the static partition is answered with the stored response |
| Offline.InstalledShellServedOffline | sw.js:19-98 | after a complete install and then activation, every manifest URL is answered offline with the response cached at install, whatever the destination |
| Offline.InstallCachesShell | sw.js:22-30 | a complete install stores `/index.html` in the static partition |
| Offline.CacheFirstDocumentAnswered | sw.js:109-115 | with the shell page cached, an offline document request on a cache-first route gets a response |
| Offline.OfflineDocumentGetsShell | sw.js:109-115 | after a complete install, an offline document request on the static or image route is answered, never with `undefined` |
| Offline.SyncedProductsServedOffline | sw.js:426-445 | once `content-sync` has stored a product list, an offline API request for `/api/products` is answered with it instead of the 503 response |

## Left out

- DOM and view glue in `app.js` is not modelled: product cards, cart rendering, navigation, toasts, the offline banner, the install prompt and the notification-permission UI. They compute nothing the cart relies on.
- Money is not modelled. Totals, `toFixed` and `Intl.NumberFormat` are floating-point formatting. `Product.price` is carried as a value that is never computed with.
- `loadCart` (app.js:267-273) is not modelled separately, because it repeats the cart half of `initializeApp`.
- `syncData` and the online/offline handlers in `app.js` are not modelled, because they only log and show a toast.
- Asynchrony is not modelled. Each event is one sequential step. `waitUntil` is not modelled, and neither is the timing of `skipWaiting` and `clients.claim`; the claim appears as the last effect of activation.
- Response bodies are not modelled as single-use streams, so `clone()` is not modelled.
- Strategies.StaleWhileRevalidate: the un-awaited background `cache.put` is applied within the same step. In the browser the caller may receive its answer before the write is visible.
- Cache Storage failures (quota, unavailability) are not modelled, including a `cache.put` that throws inside cache-first or network-first. `caches.delete` always succeeds.
- Strategies.CacheFirst: every ok response is treated as storable. The Cache API's `put` rejects a response with status 206 or a `Vary` header containing `*`, and cache-first would then take its offline fallback (sw.js:105, 109-126); this is not modelled.
- Strategies.NetworkFirst: for such a response, the rejected `put` would make network-first return the cached entry or the offline response (sw.js:138, 142-166); this is not modelled.
- Strategies.StaleWhileRevalidate: for such a response, the rejected background `put` stores nothing (sw.js:179); the model stores it.
- Lifecycle.Install: every ok manifest response is treated as one `addAll` accepts. `addAll` rejects a response with status 206 or a `Vary` header containing `*`. Install then stores nothing and does not request `skipWaiting` (sw.js:26-34). The model stores the response and requests it.
- Cache matching is by exact URL string. `Vary`, `ignoreSearch`, fragments and the method of a stored request are not modelled.
- `new URL(request.url)` (sw.js:66) is not modelled, because its value is never used.
- Logging is not modelled. Neither are the notification display options: `requireInteraction`, the action buttons and their icons.
- The shown notifications carry only title, body, icon, badge and tag.
- `event.notification.close()` runs on every click and is not modelled as an effect.
- NotificationClick: `'focus' in client` is not modelled. `matchAll({ type: 'window' })` only returns window clients, which always have `focus`.
- NotificationClick: the `clients.openWindow` feature test is not modelled, because a service worker always has it.
- `localStorage` is not defined in a service worker. In a real worker `getPendingOrders` and `getCartData` therefore always return `[]` (sw.js:307-311, 326-330), and the write in `removePendingOrder` throws and is swallowed (sw.js:319-321). The model takes the pending-order and cart items as parameters and so covers the case the code was written for; `Missing` is what a real worker sees. Absence or a parse failure gives `[]`.
- BackgroundSync.SyncOrders: order ids are compared by their text. Stored text that parses to something other than a list is treated like `[]`. In the code a number, `true` or an object throws at the `for…of` inside the outer `try`, posting nothing. A JSON string, however, is iterated character by character (sw.js:243), and each character is POSTed as an order; this is not modelled.
- BackgroundSync.RemovePendingOrder: a `localStorage` write that throws (sw.js:319-321) is not modelled; the write always lands.
- JSON parsing and serialization are not modelled. `BackgroundSync.PeriodicSync` takes what the JSON body yields as an argument (unreadable, no `products` field, or the serialized field), and the POST bodies are not modelled.
- Notifications.PushFields: payload values are modelled as the text the notification shows. A JSON payload that is not an object sets none of the five fields and is modelled as an object without them.
- Lifecycle.HandleMessage: message data is reduced to its `type` field; data that is absent or falsy has none.
- The browser's lifecycle state machine (installing, waiting, activating, active) is not modelled, because the browser drives it and the code only reacts to its events.
- Cart.AddToCart: the `saveCart` write (app.js:185, 262-264) and the permission-gated `new Notification` (app.js:190-196) are not modelled; the returned cart is what would be written.
- Cart.RemoveKeepsOthers: for `removeFromCart`, the `saveCart` write (app.js:202) and the redisplay are not modelled.
- Cart.UpdateQuantity: the `saveCart` write (app.js:217) is not modelled; the early return for a missing id (app.js:210) skips it, as the unchanged cart shows.
- Cart.Checkout: the `saveCart` write (app.js:308) and the permission-gated `new Notification` (app.js:298-304) are not modelled; the refused empty cart (app.js:288) writes nothing.
- Cart.AddToCart: quantities are unbounded integers. JavaScript numbers lose precision above 2^53, which no cart reaches.

=== FILE: background_sync.dfy ===
/**
 * The deferred action queue: replay of pending orders on the
 * `background-sync-orders` trigger, the cart snapshot post on
 * `background-sync-cart`, and the `content-sync` refresh of the cached
 * product list.
 */
module BackgroundSync {
  import opened Wrappers
  import opened Http
  import opened CacheStorage
  import opened Generations
  import opened Notifications
  import opened LocalStorage

  /** `getPendingOrders` / `getCartData`: the stored list, or `[]` when absent or unparseable. */
  function ReadList<T>(slot: Stored<seq<T>>): seq<T> {
    match slot
    case Parsed(xs) => xs
    case _ => []
  }

  /** A pending order; `id` is its identifier as text, `payload` the rest of the record. */
  datatype Order = Order(id: string, payload: string)

  /** The orders of `orders` whose id is not in `ids`, in their original order. */
  function KeepPending(orders: seq<Order>, ids: set<string>): (r: seq<Order>)
    ensures forall o :: o in r <==> o in orders && o.id !in ids
    ensures |r| <= |orders|
    decreases |orders|
  {
    if |orders| == 0 then []
    else (if orders[0].id in ids then [] else [orders[0]]) + KeepPending(orders[1..], ids)
  }

  /** The filter keeps each order with an id outside `ids` exactly as many times as it occurs. */
  lemma {:induction false} KeepPendingCounts(orders: seq<Order>, ids: set<string>)
    ensures forall o :: multiset(KeepPending(orders, ids))[o] == if o.id in ids then 0 else multiset(orders)[o]
    decreases |orders|
  {
    if |orders| > 0 {
      KeepPendingCounts(orders[1..], ids);
      assert orders == [orders[0]] + orders[1..];
    }
  }

  /** `removePendingOrder(id)`: re-read the store, drop every order with that id, write the rest back. */
  function RemovePendingOrder(store: Stored<seq<Order>>, id: string): (r: Stored<seq<Order>>)
    ensures r.Parsed?
    ensures forall o :: o in r.value <==> o in ReadList(store) && o.id != id
  {
    Parsed(KeepPending(ReadList(store), {id}))
  }

  /** `removePendingOrder` writes back each order of another id exactly as many times as it was read. */
  lemma RemovePendingCounts(store: Stored<seq<Order>>, id: string)
    ensures var written := RemovePendingOrder(store, id).value;
      forall o :: multiset(written)[o] == if o.id == id then 0 else multiset(ReadList(store))[o]
  {
    KeepPendingCounts(ReadList(store), {id});
  }

  lemma KeepPendingCons(o: Order, rest: seq<Order>, ids: set<string>)
    ensures KeepPending([o] + rest, ids) == (if o.id in ids then [] else [o]) + KeepPending(rest, ids)
  {
    assert ([o] + rest)[1..] == rest;
  }

  /** The filter works piecewise, so the orders it keeps stay in their original relative order. */
  lemma {:induction false} KeepPendingAppend(a: seq<Order>, b: seq<Order>, ids: set<string>)
    ensures KeepPending(a + b, ids) == KeepPending(a, ids) + KeepPending(b, ids)
    decreases |a|
  {
    if |a| == 0 {
      assert a == [];
      assert a + b == b;
    } else {
      KeepPendingAppend(a[1..], b, ids);
      AppendStep(a, b, ids);
    }
  }

  /** The induction step of `KeepPendingAppend`: putting one order in front of both sides. */
  lemma AppendStep(a: seq<Order>, b: seq<Order>, ids: set<string>)
    requires |a| > 0
    requires KeepPending(a[1..] + b, ids) == KeepPending(a[1..], ids) + KeepPending(b, ids)
    ensures KeepPending(a + b, ids) == KeepPending(a, ids) + KeepPending(b, ids)
  {
    var o, rest := a[0], a[1..];
    assert a == [o] + rest;
    var head := if o.id in ids then [] else [o];
    ConcatAssoc([o], rest, b);
    KeepPendingCons(o, rest + b, ids);
    KeepPendingCons(o, rest, ids);
    ConcatAssoc(head, KeepPending(rest, ids), KeepPending(b, ids));
  }

  lemma ConcatAssoc(x: seq<Order>, y: seq<Order>, z: seq<Order>)
    ensures x + y + z == x + (y + z)
  {
  }

  /** Filtering out one more id after a set of ids is filtering out the larger set. */
  lemma {:induction false} KeepPendingTwice(orders: seq<Order>, ids: set<string>, id: string)
    ensures KeepPending(KeepPending(orders, ids), {id}) == KeepPending(orders, ids + {id})
    decreases |orders|
  {
    if |orders| > 0 {
      var o := orders[0];
      KeepPendingTwice(orders[1..], ids, id);
      var rest := KeepPending(orders[1..], ids);
      assert KeepPending(orders, ids + {id}) == (if o.id in ids + {id} then [] else [o]) + KeepPending(orders[1..], ids + {id});
      if o.id in ids {
        assert KeepPending(orders, ids) == rest;
      } else {
        assert KeepPending(orders, ids) == [o] + rest;
        KeepPendingCons(o, rest, {id});
      }
    }
  }

  /** Filtering by no id keeps the list as it is. */
  lemma {:induction false} KeepPendingNone(orders: seq<Order>)
    ensures KeepPending(orders, {}) == orders
    decreases |orders|
  {
    if |orders| > 0 {
      KeepPendingNone(orders[1..]);
      assert orders == [orders[0]] + orders[1..];
    }
  }

  /** The orders among the first `n` of `snapshot` whose POST was acknowledged, in replay order. */
  function Acked(snapshot: seq<Order>, post: nat -> FetchOutcome, n: nat): seq<Order>
    requires n <= |snapshot|
  {
    if n == 0 then []
    else Acked(snapshot, post, n - 1) + (if Acknowledged(post(n - 1)) then [snapshot[n - 1]] else [])
  }

  /** The ids of `orders`, collected from the front to the last one. */
  function IdsOf(orders: seq<Order>): (r: set<string>)
    ensures forall o :: o in orders ==> o.id in r
    ensures forall id :: id in r ==> exists o :: o in orders && o.id == id
    decreases |orders|
  {
    if |orders| == 0 then {}
    else
      var init := orders[..|orders| - 1];
      assert forall o :: o in orders <==> o in init || o == orders[|orders| - 1];
      IdsOf(init) + {orders[|orders| - 1].id}
  }

  /** The notification shown for an order the server acknowledged. */
  function SyncedNotice(o: Order): Notice {
    Notice("Order Synced", "Order #" + o.id + " has been processed successfully", AppIcon, AppIcon, "order-sync")
  }

  /** The notifications for `orders`, shown one after another as each is acknowledged. */
  function SyncedNotices(orders: seq<Order>): (r: seq<Notice>)
    ensures |r| == |orders|
    ensures forall i :: 0 <= i < |orders| ==> r[i] == SyncedNotice(orders[i])
    decreases |orders|
  {
    if |orders| == 0 then []
    else SyncedNotices(orders[..|orders| - 1]) + [SyncedNotice(orders[|orders| - 1])]
  }

  /**
   * `syncOrders`: every order of the snapshot read at the start is POSTed
   * once, in order (`post(i)` is the outcome of the i-th POST). An ok
   * response removes every stored order with that id and shows a
   * notification; a non-ok response or a network error leaves the store as
   * it is and the loop goes on with the next order of the snapshot.
   */
  method SyncOrders(store: Stored<seq<Order>>, post: nat -> FetchOutcome)
    returns (after: Stored<seq<Order>>, posted: seq<Order>, notices: seq<Notice>)
    ensures posted == ReadList(store)
    ensures var acked := Acked(posted, post, |posted|);
      (|acked| == 0 ==> after == store)
      && (|acked| > 0 ==> after == Parsed(KeepPending(posted, IdsOf(acked))))
      && notices == SyncedNotices(acked)
    ensures store.Parsed? ==> after == Parsed(KeepPending(posted, IdsOf(Acked(posted, post, |posted|))))
  {
    var snapshot := ReadList(store);
    after := store;
    posted := [];
    notices := [];
    var i := 0;
    while i < |snapshot|
      invariant 0 <= i <= |snapshot|
      invariant posted == snapshot[..i]
      invariant ReplayState(store, snapshot, Acked(snapshot, post, i), after)
      invariant notices == SyncedNotices(Acked(snapshot, post, i))
    {
      after, notices := ReplayOne(store, snapshot, post, i, after, notices);
      PrefixStep(snapshot, i);
      posted := posted + [snapshot[i]];
      i := i + 1;
    }
    assert snapshot[..i] == snapshot;
    if store.Parsed? && |Acked(snapshot, post, i)| == 0 {
      KeepPendingNone(snapshot);
    }
  }

  lemma PrefixStep(s: seq<Order>, i: nat)
    requires i < |s|
    ensures s[..i + 1] == s[..i] + [s[i]]
  {
  }

  /** One iteration of the `syncOrders` loop: the i-th order's POST and, when acknowledged, its removal and notification. */
  method ReplayOne(store: Stored<seq<Order>>, snapshot: seq<Order>, post: nat -> FetchOutcome, i: nat,
                   after: Stored<seq<Order>>, notices: seq<Notice>)
    returns (after': Stored<seq<Order>>, notices': seq<Notice>)
    requires i < |snapshot|
    requires ReplayState(store, snapshot, Acked(snapshot, post, i), after)
    requires notices == SyncedNotices(Acked(snapshot, post, i))
    ensures ReplayState(store, snapshot, Acked(snapshot, post, i + 1), after')
    ensures notices' == SyncedNotices(Acked(snapshot, post, i + 1))
    ensures !Acknowledged(post(i)) ==> after' == after && notices' == notices
  {
    var order := snapshot[i];
    if Acknowledged(post(i)) {
      AckedStep(store, snapshot, post, i, after, notices);
      after' := RemovePendingOrder(after, order.id);
      notices' := notices + [SyncedNotice(order)];
    } else {
      assert Acked(snapshot, post, i + 1) == Acked(snapshot, post, i);
      after', notices' := after, notices;
    }
  }

  /** The store during a replay, after the acknowledged orders `acked` have been removed. */
  ghost predicate ReplayState(store: Stored<seq<Order>>, snapshot: seq<Order>, acked: seq<Order>, after: Stored<seq<Order>>) {
    && ReadList(store) == snapshot
    && (|acked| == 0 ==> after == store)
    && (|acked| > 0 ==> after == Parsed(KeepPending(snapshot, IdsOf(acked))))
  }

  /** One acknowledged order: removing its id advances the replay state. */
  lemma RemoveStep(store: Stored<seq<Order>>, snapshot: seq<Order>, acked: seq<Order>, order: Order, after: Stored<seq<Order>>)
    requires ReplayState(store, snapshot, acked, after)
    ensures ReplayState(store, snapshot, acked + [order], RemovePendingOrder(after, order.id))
    ensures SyncedNotices(acked + [order]) == SyncedNotices(acked) + [SyncedNotice(order)]
  {
    IdsOfSnoc(acked, order);
    NoticesSnoc(acked, order);
    if |acked| > 0 {
      KeepPendingTwice(snapshot, IdsOf(acked), order.id);
    }
  }

  lemma IdsOfSnoc(acked: seq<Order>, order: Order)
    ensures IdsOf(acked + [order]) == IdsOf(acked) + {order.id}
    ensures |acked| == 0 ==> IdsOf(acked + [order]) == {order.id}
  {
    assert (acked + [order])[..|acked|] == acked;
  }

  lemma NoticesSnoc(acked: seq<Order>, order: Order)
    ensures SyncedNotices(acked + [order]) == SyncedNotices(acked) + [SyncedNotice(order)]
  {
    assert (acked + [order])[..|acked|] == acked;
  }

  /** The loop step of `syncOrders` for an acknowledged POST. */
  lemma AckedStep(store: Stored<seq<Order>>, snapshot: seq<Order>, post: nat -> FetchOutcome, i: nat,
                  after: Stored<seq<Order>>, notices: seq<Notice>)
    requires i < |snapshot| && Acknowledged(post(i))
    requires ReplayState(store, snapshot, Acked(snapshot, post, i), after)
    requires notices == SyncedNotices(Acked(snapshot, post, i))
    ensures ReplayState(store, snapshot, Acked(snapshot, post, i + 1), RemovePendingOrder(after, snapshot[i].id))
    ensures notices + [SyncedNotice(snapshot[i])] == SyncedNotices(Acked(snapshot, post, i + 1))
  {
    assert Acked(snapshot, post, i + 1) == Acked(snapshot, post, i) + [snapshot[i]];
    RemoveStep(store, snapshot, Acked(snapshot, post, i), snapshot[i], after);
  }

  /** After a replay, an order of the snapshot is still pending exactly when no acknowledged order shares its id. */
  lemma ReplayKeepsExactlyUnacked(snapshot: seq<Order>, post: nat -> FetchOutcome, o: Order)
    requires |Acked(snapshot, post, |snapshot|)| > 0
    ensures var acked := Acked(snapshot, post, |snapshot|);
      o in KeepPending(snapshot, IdsOf(acked)) <==> o in snapshot && forall a :: a in acked ==> a.id != o.id
  {
  }

  /**
   * The first step of a replay, at the level of the store: an ok POST
   * leaves exactly what `removePendingOrder` writes for the first order's
   * id, any other outcome leaves the store untouched.
   */
  lemma SingleOrderReplay(store: Stored<seq<Order>>, post: nat -> FetchOutcome, after: Stored<seq<Order>>)
    requires |ReadList(store)| > 0
    requires ReplayState(store, ReadList(store), Acked(ReadList(store), post, 1), after)
    ensures Acknowledged(post(0)) ==> after == RemovePendingOrder(store, ReadList(store)[0].id)
    ensures !Acknowledged(post(0)) ==> after == store
  {
    var snapshot := ReadList(store);
    var first := snapshot[0];
    assert Acked(snapshot, post, 0) == [];
    if Acknowledged(post(0)) {
      assert Acked(snapshot, post, 1) == [first];
      IdsOfSnoc([], first);
      assert [] + [first] == [first];
    }
  }

  /** `syncCart`: the cart snapshot POSTed in one request, or nothing when the stored cart is empty. */
  function SyncCart<T>(slot: Stored<seq<T>>): (posted: Option<seq<T>>)
    ensures posted.Some? <==> slot.Parsed? && |slot.value| > 0
    ensures posted.Some? ==> posted.value == slot.value
  {
    var cart := ReadList(slot);
    if |cart| > 0 then Some(cart) else None
  }

  /** The jobs a `sync` event starts, by tag. */
  datatype SyncJob = OrdersJob | CartJob

  function SyncJobs(tag: string): (r: seq<SyncJob>)
    ensures OrdersJob in r <==> tag == "background-sync-orders"
    ensures CartJob in r <==> tag == "background-sync-cart"
    ensures |r| <= 1
  {
    if tag == "background-sync-orders" then [OrdersJob]
    else if tag == "background-sync-cart" then [CartJob]
    else []
  }

  /** The key `syncContent` refreshes, resolved against the worker's origin. */
  function ProductsUrl(origin: string): Url {
    Resolve(origin, "/api/products")
  }

  /** A `new Response(text)` with no init: status 200 and a plain-text content type. */
  function TextResponse(text: string): Response {
    Response(200, map["Content-Type" := "text/plain;charset=UTF-8"], text)
  }

  /** A `new Response(undefined)`: status 200, an empty body and no headers. */
  const EmptyResponse: Response := Response(200, map[], "")

  /**
   * What `response.json()` and `data.products` give for the `/api/sync`
   * body: `Unreadable` when the body is not JSON or is `null` (the parse or
   * the field access throws), `NoProducts` for JSON without a `products`
   * field, `Products(text)` with `text` the serialized field otherwise.
   */
  datatype SyncBody = Unreadable | NoProducts | Products(serialized: string)

  /** The response `syncContent` stores for a readable body. */
  function ProductsResponse(body: SyncBody): Response
    requires !body.Unreadable?
  {
    match body
    case NoProducts => EmptyResponse
    case Products(text) => TextResponse(text)
  }

  /**
   * `periodicsync` with `syncContent`: for the `content-sync` tag, `net` is
   * the outcome of fetching `/api/sync` and `body` what its JSON body
   * yields. Only an ok response with a readable body overwrites the cached
   * product list, and a body without `products` overwrites it with an
   * empty response.
   */
  function PeriodicSync(s: Storage, origin: string, tag: string, net: FetchOutcome, body: SyncBody): (r: Storage)
    ensures tag == "content-sync" && Acknowledged(net) && !body.Unreadable? ==>
      StoredOnly(s, r, DynamicCache, ProductsUrl(origin), ProductsResponse(body))
      && Names(r) == Names(Open(s, DynamicCache))
    ensures !(tag == "content-sync" && Acknowledged(net) && !body.Unreadable?) ==> r == s
  {
    if tag == "content-sync" && Acknowledged(net) && !body.Unreadable? then
      Put(s, DynamicCache, ProductsUrl(origin), ProductsResponse(body))
    else
      s
  }
}

=== FILE: cache_storage.dfy ===
/**
 * The origin's Cache Storage as the worker sees it: named partitions in
 * creation order, each mapping a request URL to a stored response.
 * `caches.open`, `cache.match`, `cache.put` and `caches.match` are the
 * functions below; storage failures (quota, unavailability) are not modelled.
 */
module CacheStorage {
  import opened Wrappers
  import opened Http

  type Entries = map<Url, Response>

  datatype Partition = Partition(name: string, entries: Entries)

  /** Partitions in creation order, the order `caches.keys()` lists them in. */
  type Storage = seq<Partition>

  /** `caches.keys()` */
  function Names(s: Storage): (r: seq<string>)
    ensures |r| == |s|
    ensures forall i :: 0 <= i < |s| ==> r[i] == s[i].name
    decreases |s|
  {
    if |s| == 0 then [] else [s[0].name] + Names(s[1..])
  }

  /** The entries of the partition `caches.open(name)` resolves to, if it exists. */
  function Find(s: Storage, name: string): (r: Option<Entries>)
    ensures r.Some? <==> name in Names(s)
    decreases |s|
  {
    if |s| == 0 then None
    else if s[0].name == name then Some(s[0].entries)
    else Find(s[1..], name)
  }

  /** `cache.match(request)` on the partition `name`; a missing partition holds nothing. */
  function Lookup(s: Storage, name: string, key: Url): Option<Response> {
    match Find(s, name)
    case Some(e) => if key in e then Some(e[key]) else None
    case None => None
  }

  /** Every partition holds the same entry (or none) under every key in `a` and `b`. */
  ghost predicate SameEntries(a: Storage, b: Storage) {
    forall n, k :: Lookup(a, n, k) == Lookup(b, n, k)
  }

  /** `b` is `a` with `resp` stored under `key` in partition `name`, and nothing else changed. */
  ghost predicate StoredOnly(a: Storage, b: Storage, name: string, key: Url, resp: Response) {
    forall n, k :: Lookup(b, n, k) == (if n == name && k == key then Some(resp) else Lookup(a, n, k))
  }

  lemma {:induction false} NamesAppend(s: Storage, p: Partition)
    ensures Names(s + [p]) == Names(s) + [p.name]
  {
    assert forall i :: 0 <= i < |s| + 1 ==> Names(s + [p])[i] == (Names(s) + [p.name])[i];
  }

  lemma {:induction false} FindAppend(s: Storage, p: Partition, n: string)
    ensures Find(s + [p], n) == if n in Names(s) then Find(s, n) else if p.name == n then Some(p.entries) else None
    decreases |s|
  {
    if |s| == 0 {
      assert s + [p] == [p];
      assert [p][1..] == [];
    } else {
      assert (s + [p])[1..] == s[1..] + [p];
      assert Names(s) == [s[0].name] + Names(s[1..]);
      FindAppend(s[1..], p, n);
    }
  }

  lemma FindAppendAll(s: Storage, p: Partition)
    ensures forall n :: Find(s + [p], n) == if n in Names(s) then Find(s, n) else if p.name == n then Some(p.entries) else None
  {
    forall n
      ensures Find(s + [p], n) == if n in Names(s) then Find(s, n) else if p.name == n then Some(p.entries) else None
    {
      FindAppend(s, p, n);
    }
  }

  /** `caches.open(name)`: the partition is created, last in order, if it does not exist. */
  function Open(s: Storage, name: string): (r: Storage)
    ensures Names(r) == if name in Names(s) then Names(s) else Names(s) + [name]
    ensures SameEntries(s, r)
  {
    if name in Names(s) then s
    else
      var p := Partition(name, map[]);
      NamesAppend(s, p);
      FindAppendAll(s, p);
      s + [p]
  }

  lemma FindCons(p: Partition, t: Storage, n: string)
    ensures Find([p] + t, n) == if p.name == n then Some(p.entries) else Find(t, n)
  {
    assert ([p] + t)[1..] == t;
  }

  lemma NamesCons(p: Partition, t: Storage)
    ensures Names([p] + t) == [p.name] + Names(t)
  {
    assert ([p] + t)[1..] == t;
  }

  /** Storing into the head partition: the rest of the storage is untouched. */
  lemma PutHead(s: Storage, name: string, key: Url, resp: Response)
    requires |s| > 0 && s[0].name == name
    ensures var r := [s[0].(entries := s[0].entries[key := resp])] + s[1..];
      Names(r) == Names(s) && StoredOnly(s, r, name, key, resp)
  {
    var p := s[0].(entries := s[0].entries[key := resp]);
    assert s == [s[0]] + s[1..];
    NamesCons(p, s[1..]);
    NamesCons(s[0], s[1..]);
    forall n, k
      ensures Lookup([p] + s[1..], n, k) == (if n == name && k == key then Some(resp) else Lookup(s, n, k))
    {
      FindCons(p, s[1..], n);
      FindCons(s[0], s[1..], n);
    }
  }

  lemma PutPastNames(s: Storage, name: string, t: Storage)
    requires |s| > 0 && s[0].name != name
    requires Names(t) == Names(Open(s[1..], name))
    ensures Names([s[0]] + t) == Names(Open(s, name))
  {
    assert s == [s[0]] + s[1..];
    NamesCons(s[0], t);
    NamesCons(s[0], s[1..]);
    assert name in Names(s) <==> name in Names(s[1..]);
    if name !in Names(s) {
      assert Names(s) + [name] == [s[0].name] + (Names(s[1..]) + [name]);
    }
  }

  lemma PutPastEntries(s: Storage, name: string, key: Url, resp: Response, t: Storage)
    requires |s| > 0 && s[0].name != name
    requires StoredOnly(s[1..], t, name, key, resp)
    ensures StoredOnly(s, [s[0]] + t, name, key, resp)
  {
    assert s == [s[0]] + s[1..];
    forall n, k
      ensures Lookup([s[0]] + t, n, k) == (if n == name && k == key then Some(resp) else Lookup(s, n, k))
    {
      FindCons(s[0], t, n);
      FindCons(s[0], s[1..], n);
      assert Lookup(t, n, k) == (if n == name && k == key then Some(resp) else Lookup(s[1..], n, k));
      if n != s[0].name {
        assert Lookup([s[0]] + t, n, k) == Lookup(t, n, k);
        assert Lookup(s, n, k) == Lookup(s[1..], n, k);
      }
    }
  }

  /** `cache.put(key, resp)` on the partition `name`, which is opened first. */
  function Put(s: Storage, name: string, key: Url, resp: Response): (r: Storage)
    ensures Names(r) == Names(Open(s, name))
    ensures StoredOnly(s, r, name, key, resp)
    decreases |s|
  {
    if |s| == 0 then
      [Partition(name, map[key := resp])]
    else if s[0].name == name then
      PutHead(s, name, key, resp);
      [s[0].(entries := s[0].entries[key := resp])] + s[1..]
    else
      var t := Put(s[1..], name, key, resp);
      PutPastNames(s, name, t);
      PutPastEntries(s, name, key, resp, t);
      [s[0]] + t
  }

  /** Cache Storage never holds two caches under one name. */
  ghost predicate DistinctNames(s: Storage) {
    forall i, j :: 0 <= i < j < |Names(s)| ==> Names(s)[i] != Names(s)[j]
  }

  /** Opening a cache, and so storing into one, never creates a second cache of an existing name. */
  lemma OpenPutKeepDistinct(s: Storage, name: string, key: Url, resp: Response)
    requires DistinctNames(s)
    ensures DistinctNames(Open(s, name))
    ensures DistinctNames(Put(s, name, key, resp))
  {
    if name !in Names(s) {
      var r := Names(s) + [name];
      assert forall i :: 0 <= i < |Names(s)| ==> r[i] == Names(s)[i];
    }
  }

  /** The first partition, in creation order, from `from` on, holding an entry under `key`. */
  function FirstHolding(s: Storage, key: Url, from: nat): (r: Option<nat>)
    requires from <= |s|
    ensures r.Some? ==> from <= r.value < |s| && key in s[r.value].entries
    ensures r.Some? ==> forall j :: from <= j < r.value ==> key !in s[j].entries
    ensures r.None? ==> forall j :: from <= j < |s| ==> key !in s[j].entries
    decreases |s| - from
  {
    if from == |s| then None
    else if key in s[from].entries then Some(from)
    else FirstHolding(s, key, from + 1)
  }

  /** `caches.match(key)`: the entry of the first partition, in creation order, that has one. */
  function MatchAny(s: Storage, key: Url): (r: Option<Response>)
    ensures r.None? <==> forall j :: 0 <= j < |s| ==> key !in s[j].entries
  {
    match FirstHolding(s, key, 0)
    case Some(i) => Some(s[i].entries[key])
    case None => None
  }

  /** A partition that `cache.match` finds is one of the partitions `caches.match` searches. */
  lemma {:induction false} FindIsPartition(s: Storage, name: string)
    requires Find(s, name).Some?
    ensures exists i :: 0 <= i < |s| && s[i].name == name && s[i].entries == Find(s, name).value
    decreases |s|
  {
    if s[0].name != name {
      FindIsPartition(s[1..], name);
      var i :| 0 <= i < |s[1..]| && s[1..][i].name == name && s[1..][i].entries == Find(s[1..], name).value;
      assert s[i + 1] == s[1..][i];
    }
  }

  /** Whatever one partition holds under `key`, `caches.match(key)` finds something. */
  lemma LookupImpliesMatchAny(s: Storage, name: string, key: Url)
    requires Lookup(s, name, key).Some?
    ensures MatchAny(s, key).Some?
  {
    FindIsPartition(s, name);
  }
}

=== FILE: cart.dfy ===
/**
 * The storefront's cart: a sequence of product lines with quantities,
 * and the operations the UI calls on it. The price never enters the
 * bookkeeping.
 */
module Cart {
  import opened Wrappers
  import opened Catalog

  /** `{ ...product, quantity }` */
  datatype CartItem = CartItem(product: Product, quantity: int)

  type Cart = seq<CartItem>

  /** The position of the first line with that id, searching from `from`. */
  function ItemIndex(cart: Cart, id: ProductId, from: nat): (r: Option<nat>)
    requires from <= |cart|
    ensures r.Some? ==> from <= r.value < |cart| && cart[r.value].product.id == id
    ensures r.Some? ==> forall j :: from <= j < r.value ==> cart[j].product.id != id
    ensures r.None? ==> forall j :: from <= j < |cart| ==> cart[j].product.id != id
    decreases |cart| - from
  {
    if from == |cart| then None
    else if cart[from].product.id == id then Some(from)
    else ItemIndex(cart, id, from + 1)
  }

  /** `cart.find(item => item.id === id)` locates this line. */
  predicate IsFirstLine(cart: Cart, id: ProductId, i: int) {
    0 <= i < |cart| && cart[i].product.id == id && forall j :: 0 <= j < i ==> cart[j].product.id != id
  }

  predicate InCart(cart: Cart, id: ProductId) {
    exists i :: 0 <= i < |cart| && cart[i].product.id == id
  }

  ghost predicate UniqueIds(cart: Cart) {
    forall i, j :: 0 <= i < j < |cart| ==> cart[i].product.id != cart[j].product.id
  }

  ghost predicate PositiveQuantities(cart: Cart) {
    forall i :: 0 <= i < |cart| ==> cart[i].quantity >= 1
  }

  /** The invariant the UI's operations keep: one line per product, each with a positive quantity. */
  ghost predicate Valid(cart: Cart) {
    UniqueIds(cart) && PositiveQuantities(cart)
  }

  function Ids(cart: Cart): set<ProductId> {
    set i | 0 <= i < |cart| :: cart[i].product.id
  }

  /**
   * `addToCart`: an id not in the product list leaves the cart as it is;
   * an id already in the cart adds one to that line only; a new id appends
   * one line of quantity 1 at the end.
   */
  function AddToCart(products: seq<Product>, cart: Cart, id: ProductId): (r: Cart)
    ensures FindProduct(products, id).None? ==> r == cart
    ensures FindProduct(products, id).Some? && InCart(cart, id) ==>
      |r| == |cart|
      && forall j :: 0 <= j < |cart| ==>
           r[j] == if IsFirstLine(cart, id, j) then cart[j].(quantity := cart[j].quantity + 1) else cart[j]
    ensures FindProduct(products, id).Some? && !InCart(cart, id) ==>
      r == cart + [CartItem(FindProduct(products, id).value, 1)]
  {
    match FindProduct(products, id)
    case None => cart
    case Some(p) =>
      match ItemIndex(cart, id, 0)
      case Some(i) => cart[i := cart[i].(quantity := cart[i].quantity + 1)]
      case None => cart + [CartItem(p, 1)]
  }

  /** `removeFromCart`: `cart.filter(item => item.id !== id)`. */
  function RemoveFromCart(cart: Cart, id: ProductId): (r: Cart)
    ensures |r| <= |cart|
    decreases |cart|
  {
    if |cart| == 0 then []
    else (if cart[0].product.id == id then [] else [cart[0]]) + RemoveFromCart(cart[1..], id)
  }

  /** The lines `removeFromCart` keeps are exactly the lines with another id. */
  lemma {:induction false} RemoveKeepsOthers(cart: Cart, id: ProductId)
    ensures forall x :: x in RemoveFromCart(cart, id) <==> x in cart && x.product.id != id
    decreases |cart|
  {
    if |cart| > 0 {
      RemoveKeepsOthers(cart[1..], id);
      assert cart == [cart[0]] + cart[1..];
    }
  }

  /** The filter works piecewise, so the kept lines stay in their original order, for every cart. */
  lemma {:induction false} RemoveFromCartAppend(a: Cart, b: Cart, id: ProductId)
    ensures RemoveFromCart(a + b, id) == RemoveFromCart(a, id) + RemoveFromCart(b, id)
    decreases |a|
  {
    if |a| == 0 {
      assert a + b == b;
    } else {
      RemoveFromCartAppend(a[1..], b, id);
      RemoveAppendStep(a, b, id);
    }
  }

  /** The induction step of `RemoveFromCartAppend`: one line in front of both sides. */
  lemma RemoveAppendStep(a: Cart, b: Cart, id: ProductId)
    requires |a| > 0
    requires RemoveFromCart(a[1..] + b, id) == RemoveFromCart(a[1..], id) + RemoveFromCart(b, id)
    ensures RemoveFromCart(a + b, id) == RemoveFromCart(a, id) + RemoveFromCart(b, id)
  {
    var head := if a[0].product.id == id then [] else [a[0]];
    assert (a + b)[0] == a[0];
    assert (a + b)[1..] == a[1..] + b;
    assert head + (RemoveFromCart(a[1..], id) + RemoveFromCart(b, id))
        == (head + RemoveFromCart(a[1..], id)) + RemoveFromCart(b, id);
  }

  /**
   * `updateQuantity`: a missing id changes nothing; a line whose new
   * quantity `q + change` is not positive is removed; otherwise only that
   * line's quantity becomes `q + change`.
   */
  function UpdateQuantity(cart: Cart, id: ProductId, change: int): (r: Cart)
    ensures !InCart(cart, id) ==> r == cart
    ensures forall i :: IsFirstLine(cart, id, i) && cart[i].quantity + change <= 0 ==> r == RemoveFromCart(cart, id)
    ensures forall i :: IsFirstLine(cart, id, i) && cart[i].quantity + change > 0 ==>
      |r| == |cart| && r[i] == cart[i].(quantity := cart[i].quantity + change)
      && forall j :: 0 <= j < |cart| && j != i ==> r[j] == cart[j]
  {
    match ItemIndex(cart, id, 0)
    case None => cart
    case Some(i) =>
      assert forall j :: IsFirstLine(cart, id, j) ==> j == i;
      var q := cart[i].quantity + change;
      if q <= 0 then RemoveFromCart(cart, id) else cart[i := cart[i].(quantity := q)]
  }

  /** The header's item count: `cart.reduce((sum, item) => sum + item.quantity, 0)`. */
  function ItemCount(cart: Cart): int
    decreases |cart|
  {
    if |cart| == 0 then 0 else cart[0].quantity + ItemCount(cart[1..])
  }

  lemma {:induction false} ItemCountAppend(a: Cart, b: Cart)
    ensures ItemCount(a + b) == ItemCount(a) + ItemCount(b)
    decreases |a|
  {
    if |a| == 0 {
      assert a + b == b;
    } else {
      assert (a + b)[1..] == a[1..] + b;
      ItemCountAppend(a[1..], b);
    }
  }

  /** Replacing one line changes the count by the difference of the two quantities. */
  lemma ItemCountReplace(cart: Cart, i: nat, x: CartItem)
    requires i < |cart|
    ensures ItemCount(cart[i := x]) == ItemCount(cart) - cart[i].quantity + x.quantity
  {
    assert cart == cart[..i] + [cart[i]] + cart[i + 1..];
    assert cart[i := x] == cart[..i] + [x] + cart[i + 1..];
    ItemCountAppend(cart[..i] + [cart[i]], cart[i + 1..]);
    ItemCountAppend(cart[..i], [cart[i]]);
    ItemCountAppend(cart[..i] + [x], cart[i + 1..]);
    ItemCountAppend(cart[..i], [x]);
  }

  /** In a valid cart the count is at least the number of lines. */
  lemma {:induction false} ValidCountCoversLines(cart: Cart)
    requires PositiveQuantities(cart)
    ensures ItemCount(cart) >= |cart|
    decreases |cart|
  {
    if |cart| > 0 {
      ValidCountCoversLines(cart[1..]);
    }
  }

  /** With unique ids, removing the line at `i` by its id removes exactly that position. */
  lemma RemoveIsPositionDelete(cart: Cart, i: nat)
    requires UniqueIds(cart) && i < |cart|
    ensures RemoveFromCart(cart, cart[i].product.id) == cart[..i] + cart[i + 1..]
  {
    RemoveSoleLine(cart, i);
  }

  /** When only the line at `i` carries its id, removing that id removes exactly that position. */
  lemma {:induction false} RemoveSoleLine(cart: Cart, i: nat)
    requires i < |cart|
    requires forall j :: 0 <= j < |cart| && j != i ==> cart[j].product.id != cart[i].product.id
    ensures RemoveFromCart(cart, cart[i].product.id) == cart[..i] + cart[i + 1..]
    decreases |cart|
  {
    var id := cart[i].product.id;
    var tail := cart[1..];
    assert forall j :: 0 <= j < |tail| ==> tail[j] == cart[j + 1];
    if i == 0 {
      RemoveAbsent(tail, id);
    } else {
      assert tail[i - 1] == cart[i];
      RemoveSoleLine(tail, i - 1);
      assert cart[..i] == [cart[0]] + tail[..i - 1];
      assert cart[i + 1..] == tail[i..];
    }
  }

  /** Removing an id that no line carries leaves the cart as it is. */
  lemma {:induction false} RemoveAbsent(cart: Cart, id: ProductId)
    requires forall j :: 0 <= j < |cart| ==> cart[j].product.id != id
    ensures RemoveFromCart(cart, id) == cart
    decreases |cart|
  {
    if |cart| > 0 {
      RemoveAbsent(cart[1..], id);
      assert cart == [cart[0]] + cart[1..];
    }
  }

  lemma ValidUnderDeletion(cart: Cart, i: nat)
    requires Valid(cart) && i < |cart|
    ensures Valid(cart[..i] + cart[i + 1..])
    ensures !InCart(cart[..i] + cart[i + 1..], cart[i].product.id)
  {
    var r := cart[..i] + cart[i + 1..];
    assert forall j :: 0 <= j < |r| ==> r[j] == if j < i then cart[j] else cart[j + 1];
  }

  /** `addToCart` keeps a valid cart valid. */
  lemma AddKeepsValid(products: seq<Product>, cart: Cart, id: ProductId)
    requires Valid(cart)
    ensures Valid(AddToCart(products, cart, id))
  {
  }

  /** A successful `addToCart` raises the item count by exactly one. */
  lemma AddCountsOne(products: seq<Product>, cart: Cart, id: ProductId)
    requires FindProduct(products, id).Some?
    ensures ItemCount(AddToCart(products, cart, id)) == ItemCount(cart) + 1
  {
    match ItemIndex(cart, id, 0)
    case Some(i) =>
      var line := cart[i].(quantity := cart[i].quantity + 1);
      assert AddToCart(products, cart, id) == cart[i := line];
      ItemCountReplace(cart, i, line);
    case None =>
      var line := CartItem(FindProduct(products, id).value, 1);
      assert AddToCart(products, cart, id) == cart + [line];
      ItemCountAppend(cart, [line]);
      assert ItemCount([line]) == 1;
  }

  /** A known id is in the cart afterwards, and no other id appears. */
  lemma AddIds(products: seq<Product>, cart: Cart, id: ProductId)
    requires FindProduct(products, id).Some?
    ensures Ids(AddToCart(products, cart, id)) == Ids(cart) + {id}
  {
    var r := AddToCart(products, cart, id);
    match ItemIndex(cart, id, 0)
    case Some(i) =>
      assert forall j :: 0 <= j < |r| ==> r[j].product.id == cart[j].product.id;
    case None =>
      assert r[|cart|].product.id == id;
      assert forall j :: 0 <= j < |cart| ==> r[j] == cart[j];
  }

  /** `removeFromCart` keeps a valid cart valid and takes that line's quantity off the count. */
  lemma RemoveKeepsValid(cart: Cart, id: ProductId)
    requires Valid(cart)
    ensures Valid(RemoveFromCart(cart, id))
    ensures !InCart(RemoveFromCart(cart, id), id)
    ensures forall i :: 0 <= i < |cart| && cart[i].product.id == id ==>
      ItemCount(RemoveFromCart(cart, id)) == ItemCount(cart) - cart[i].quantity
  {
    match ItemIndex(cart, id, 0)
    case None =>
      RemoveAbsent(cart, id);
    case Some(i) =>
      assert forall j :: 0 <= j < |cart| && cart[j].product.id == id ==> j == i;
      RemoveIsPositionDelete(cart, i);
      ValidUnderDeletion(cart, i);
      DeleteLineCount(cart, i);
  }

  lemma DeleteLineCount(cart: Cart, i: nat)
    requires i < |cart|
    ensures ItemCount(cart[..i] + cart[i + 1..]) == ItemCount(cart) - cart[i].quantity
  {
    assert cart == cart[..i] + [cart[i]] + cart[i + 1..];
    ItemCountAppend(cart[..i] + [cart[i]], cart[i + 1..]);
    ItemCountAppend(cart[..i], [cart[i]]);
    ItemCountAppend(cart[..i], cart[i + 1..]);
  }

  /**
   * `updateQuantity` keeps a valid cart valid, and changes the count by
   * `change` when the line stays, or by minus its quantity when it goes.
   */
  lemma UpdateKeepsValid(cart: Cart, id: ProductId, change: int)
    requires Valid(cart)
    ensures Valid(UpdateQuantity(cart, id, change))
    ensures forall i :: 0 <= i < |cart| && cart[i].product.id == id ==>
      ItemCount(UpdateQuantity(cart, id, change)) ==
        if cart[i].quantity + change > 0 then ItemCount(cart) + change else ItemCount(cart) - cart[i].quantity
  {
    match ItemIndex(cart, id, 0)
    case None =>
    case Some(i) =>
      if cart[i].quantity + change <= 0 {
        UpdateDropsLine(cart, id, change, i);
      } else {
        UpdateKeepsLine(cart, id, change, i);
      }
  }

  lemma UpdateDropsLine(cart: Cart, id: ProductId, change: int, i: nat)
    requires Valid(cart) && ItemIndex(cart, id, 0) == Some(i) && cart[i].quantity + change <= 0
    ensures Valid(UpdateQuantity(cart, id, change))
    ensures forall j :: 0 <= j < |cart| && cart[j].product.id == id ==>
      ItemCount(UpdateQuantity(cart, id, change)) == ItemCount(cart) - cart[j].quantity
  {
    assert UpdateQuantity(cart, id, change) == RemoveFromCart(cart, id);
    RemoveKeepsValid(cart, id);
  }

  lemma UpdateKeepsLine(cart: Cart, id: ProductId, change: int, i: nat)
    requires Valid(cart) && ItemIndex(cart, id, 0) == Some(i) && cart[i].quantity + change > 0
    ensures Valid(UpdateQuantity(cart, id, change))
    ensures forall j :: 0 <= j < |cart| && cart[j].product.id == id ==>
      ItemCount(UpdateQuantity(cart, id, change)) == ItemCount(cart) + change
  {
    var q := cart[i].quantity + change;
    assert UpdateQuantity(cart, id, change) == cart[i := cart[i].(quantity := q)];
    SetQuantityKeepsValid(cart, i, q);
  }

  lemma SetQuantityKeepsValid(cart: Cart, i: nat, q: int)
    requires Valid(cart) && i < |cart| && q > 0
    ensures Valid(cart[i := cart[i].(quantity := q)])
    ensures ItemCount(cart[i := cart[i].(quantity := q)]) == ItemCount(cart) - cart[i].quantity + q
  {
    var r := cart[i := cart[i].(quantity := q)];
    assert forall j :: 0 <= j < |r| ==> r[j].product.id == cart[j].product.id;
    ItemCountReplace(cart, i, cart[i].(quantity := q));
  }

  datatype CheckoutStatus = CartEmpty | Declined | Placed

  /**
   * `handleCheckout`: an empty cart is refused, a declined confirmation
   * keeps the cart, a confirmed one clears it.
   */
  function Checkout(cart: Cart, confirmed: bool): (r: (Cart, CheckoutStatus))
    ensures r.1 == CartEmpty <==> |cart| == 0
    ensures r.1 == Placed <==> |cart| > 0 && confirmed
    ensures r.1 == Placed ==> r.0 == []
    ensures r.1 != Placed ==> r.0 == cart
  {
    if |cart| == 0 then (cart, CartEmpty)
    else if confirmed then ([], Placed)
    else (cart, Declined)
  }

  /** After a placed order the header shows no items. */
  lemma PlacedOrderZeroesCount(cart: Cart)
    requires |cart| > 0
    ensures ItemCount(Checkout(cart, true).0) == 0
  {
  }
}

=== FILE: catalog.dfy ===
/** The storefront's product list: the product record, the sample catalogue, and lookup by id. */
module Catalog {
  import opened Wrappers

  type ProductId = int

  /** A product; the price is carried as written and never computed with. */
  datatype Product = Product(id: ProductId, title: string, description: string, price: real, image: string, category: string)

  const SampleProducts: seq<Product> := [
    Product(1, "Wireless Headphones", "High-quality wireless headphones with noise cancellation", 99.99, "🎧", "Electronics"),
    Product(2, "Smart Watch", "Feature-rich smartwatch with health monitoring", 199.99, "⌚", "Electronics"),
    Product(3, "Laptop Backpack", "Durable laptop backpack with multiple compartments", 49.99, "🎒", "Accessories"),
    Product(4, "Bluetooth Speaker", "Portable Bluetooth speaker with excellent sound quality", 79.99, "🔊", "Electronics"),
    Product(5, "Wireless Mouse", "Ergonomic wireless mouse for productivity", 29.99, "🖱️", "Electronics"),
    Product(6, "Phone Case", "Protective phone case with premium materials", 19.99, "📱", "Accessories")
  ]

  /** The position of the first product with that id, searching from `from`. */
  function ProductIndex(products: seq<Product>, id: ProductId, from: nat): (r: Option<nat>)
    requires from <= |products|
    ensures r.Some? ==> from <= r.value < |products| && products[r.value].id == id
    ensures r.Some? ==> forall j :: from <= j < r.value ==> products[j].id != id
    ensures r.None? ==> forall j :: from <= j < |products| ==> products[j].id != id
    decreases |products| - from
  {
    if from == |products| then None
    else if products[from].id == id then Some(from)
    else ProductIndex(products, id, from + 1)
  }

  /** `products.find(p => p.id === id)`: the first product with that id. */
  function FindProduct(products: seq<Product>, id: ProductId): Option<Product> {
    match ProductIndex(products, id, 0)
    case Some(i) => Some(products[i])
    case None => None
  }
}

=== FILE: classifier.dfy ===
/**
 * The request classifier of the fetch handler: `isStaticFile`,
 * `isImageRequest` and `isAPIRequest`, and the category a GET request is
 * routed by, tested in the handler's order static, image, api, other.
 */
module Classifier {
  import opened Strings
  import opened Http
  import opened Generations

  /**
   * `isStaticFile`: the URL ends with a manifest entry (`/` among them), or
   * mentions `.css`, `.js` or `.html` anywhere. Only the URL is consulted.
   */
  predicate IsStaticFile(url: Url) {
    (exists i :: 0 <= i < |StaticFiles| && EndsWith(url, StaticFiles[i]))
    || Contains(url, ".css")
    || Contains(url, ".js")
    || Contains(url, ".html")
  }

  /** `isImageRequest`: an image destination, or an image extension anywhere in the URL. */
  predicate IsImageRequest(req: Request) {
    req.destination == "image"
    || Contains(req.url, ".png")
    || Contains(req.url, ".jpg")
    || Contains(req.url, ".jpeg")
    || Contains(req.url, ".gif")
    || Contains(req.url, ".svg")
    || Contains(req.url, ".webp")
  }

  /** `isAPIRequest`: an API marker anywhere in the URL. */
  predicate IsApiRequest(url: Url) {
    Contains(url, "/api/") || Contains(url, "/graphql") || Contains(url, "api.")
  }

  datatype Category = Static | Image | Api | Other

  /** The branch of the fetch handler a GET request takes. */
  function Classify(req: Request): Category {
    if IsStaticFile(req.url) then Static
    else if IsImageRequest(req) then Image
    else if IsApiRequest(req.url) then Api
    else Other
  }

  /** Whether the test guarding category `c` passes; `Other` is the fallback and has no test. */
  predicate Passes(c: Category, req: Request) {
    match c
    case Static => IsStaticFile(req.url)
    case Image => IsImageRequest(req)
    case Api => IsApiRequest(req.url)
    case Other => false
  }

  /** A handler that tries the tests in the order `order` and falls back to `Other`. */
  function FirstPassing(order: seq<Category>, req: Request): Category
    decreases |order|
  {
    if |order| == 0 then Other
    else if Passes(order[0], req) then order[0]
    else FirstPassing(order[1..], req)
  }

  /** At most one of the three tests passes, so no two branches compete for the request. */
  predicate ExclusiveTests(req: Request) {
    !(IsStaticFile(req.url) && IsImageRequest(req))
    && !(IsStaticFile(req.url) && IsApiRequest(req.url))
    && !(IsImageRequest(req) && IsApiRequest(req.url))
  }

  /**
   * The handler's order static, image, api matters only for requests that
   * pass two tests: when at most one passes, any order that tries all three
   * routes the request to the same category.
   */
  lemma OrderMattersOnlyForOverlaps(order: seq<Category>, req: Request)
    requires Static in order && Image in order && Api in order
    requires ExclusiveTests(req)
    ensures FirstPassing(order, req) == Classify(req)
  {
    var c := Classify(req);
    if c == Other {
      NoTestPasses(order, req);
    } else {
      SoleTestFound(order, req, c);
    }
  }

  lemma {:induction false} NoTestPasses(order: seq<Category>, req: Request)
    requires forall d :: d in order ==> !Passes(d, req)
    ensures FirstPassing(order, req) == Other
    decreases |order|
  {
    if |order| > 0 {
      assert order[0] in order;
      assert forall d :: d in order[1..] ==> d in order;
      NoTestPasses(order[1..], req);
    }
  }

  lemma {:induction false} SoleTestFound(order: seq<Category>, req: Request, c: Category)
    requires c in order && Passes(c, req)
    requires forall d :: d in order && d != c ==> !Passes(d, req)
    ensures FirstPassing(order, req) == c
    decreases |order|
  {
    if order[0] != c {
      assert order[0] in order;
      assert forall d :: d in order[1..] ==> d in order;
      SoleTestFound(order[1..], req, c);
    }
  }

  /**
   * The destination can change the category only by being `image`, and the
   * method never does.
   */
  lemma DestinationMattersOnlyForImages(url: Url, v1: string, v2: string, d1: string, d2: string)
    requires d1 != "image" && d2 != "image"
    ensures Classify(Request(url, v1, d1)) == Classify(Request(url, v2, d2))
  {
  }

  /** Every URL ending in a manifest entry is static, whatever its destination. */
  lemma ManifestUrlIsStatic(prefix: string, i: nat, verb: string, destination: string)
    requires i < |StaticFiles|
    ensures Classify(Request(prefix + StaticFiles[i], verb, destination)) == Static
  {
    EndsWithAppend(prefix, StaticFiles[i]);
  }

  /** Because `/` is a manifest entry, every URL with a trailing slash is static. */
  lemma TrailingSlashIsStatic(url: Url, verb: string, destination: string)
    requires |url| > 0 && url[|url| - 1] == '/'
    ensures Classify(Request(url, verb, destination)) == Static
  {
    assert url[|url| - 1..] == StaticFiles[0];
  }

  /** `.js` is a prefix of `.json`, so every JSON URL is routed as a static file. */
  lemma JsonIsStatic(url: Url, verb: string, destination: string)
    requires Contains(url, ".json")
    ensures Classify(Request(url, verb, destination)) == Static
  {
    ContainsPrefix(url, ".json", ".js");
  }

  /** A request for an image destination goes to the image branch unless its URL is static. */
  lemma ImageDestinationIsImage(url: Url, verb: string)
    requires !IsStaticFile(url)
    ensures Classify(Request(url, verb, "image")) == Image
  {
  }

  /** A URL under `/api/` is an API request unless a static or image test claims it first. */
  lemma ApiPathIsApi(before: string, after: string, verb: string, destination: string)
    requires var req := Request(before + "/api/" + after, verb, destination);
      !IsStaticFile(req.url) && !IsImageRequest(req)
    ensures Classify(Request(before + "/api/" + after, verb, destination)) == Api
  {
    ContainsInfix(before, "/api/", after);
  }
}

=== FILE: fetch_handler.dfy ===
/**
 * The worker's `fetch` listener: non-GET requests are left to the
 * browser; every GET request is classified and answered by the strategy
 * and partition of its category.
 */
module FetchHandler {
  import opened Wrappers
  import opened Http
  import opened CacheStorage
  import opened Generations
  import opened Classifier
  import opened Strategies

  /** The partition each category reads and writes. */
  function PartitionFor(c: Category): string {
    match c
    case Static => StaticCache
    case Image => ImageCache
    case Api => DynamicCache
    case Other => DynamicCache
  }

  /** `NotHandled`: `respondWith` is never called and the browser fetches on its own. */
  datatype Handling = NotHandled | Handled(category: Category, served: Served)

  function Serve(s: Storage, req: Request, c: Category, net: FetchOutcome, origin: string): Served {
    match c
    case Static => CacheFirst(s, req, StaticCache, net, origin)
    case Image => CacheFirst(s, req, ImageCache, net, origin)
    case Api => NetworkFirst(s, req, DynamicCache, net)
    case Other => StaleWhileRevalidate(s, req, DynamicCache, net)
  }

  function HandleFetch(s: Storage, req: Request, net: FetchOutcome, origin: string): (h: Handling)
    ensures h.NotHandled? <==> req.verb != "GET"
    ensures h.Handled? ==> h.category == Classify(req)
    ensures h.Handled? && h.category == Static ==> h.served == CacheFirst(s, req, StaticCache, net, origin)
    ensures h.Handled? && h.category == Image ==> h.served == CacheFirst(s, req, ImageCache, net, origin)
    ensures h.Handled? && h.category == Api ==> h.served == NetworkFirst(s, req, DynamicCache, net)
    ensures h.Handled? && h.category == Other ==> h.served == StaleWhileRevalidate(s, req, DynamicCache, net)
  {
    if req.verb != "GET" then NotHandled
    else
      var c := Classify(req);
      Handled(c, Serve(s, req, c, net, origin))
  }

  /**
   * A GET request changes at most one cache entry: its own URL, in its
   * category's partition, and only to an ok response the network gave.
   */
  lemma WritesConfinedToRoute(s: Storage, req: Request, net: FetchOutcome, origin: string, n: string, k: Url)
    requires req.verb == "GET"
    ensures var after := HandleFetch(s, req, net, origin).served.storage;
      Lookup(after, n, k) != Lookup(s, n, k) ==>
        n == PartitionFor(Classify(req)) && k == req.url && Acknowledged(net)
        && Lookup(after, n, k) == Some(net.response)
  {
    var c := Classify(req);
    var part := PartitionFor(c);
    var after := HandleFetch(s, req, net, origin).served.storage;
    assert after == Serve(s, req, c, net, origin).storage;
    if Acknowledged(net) && ((c != Static && c != Image) || Lookup(s, part, req.url).None?) {
      assert StoredOnly(s, after, part, req.url, net.response);
      assert Lookup(after, n, k) == (if n == part && k == req.url then Some(net.response) else Lookup(s, n, k));
    } else {
      assert SameEntries(s, after);
      assert Lookup(after, n, k) == Lookup(s, n, k);
    }
  }

  /** The only cache partition a GET request can create is its category's. */
  lemma CreatesOnlyRoutePartition(s: Storage, req: Request, net: FetchOutcome, origin: string)
    requires req.verb == "GET"
    ensures var after := HandleFetch(s, req, net, origin).served.storage;
      forall n :: n in Names(after) <==> n in Names(s) || (n == PartitionFor(Classify(req)) && (Classify(req) != Api || Acknowledged(net) || net.NetworkError?))
  {
    var c := Classify(req);
    var after := HandleFetch(s, req, net, origin).served.storage;
    assert after == Serve(s, req, c, net, origin).storage;
    if c == Api && net.Fetched? && !Ok(net.response) {
      assert after == s;
    } else {
      assert Names(after) == Names(Open(s, PartitionFor(c)));
    }
  }

  /** While the network answers, every GET request is answered with a response. */
  lemma OnlineAlwaysAnswers(s: Storage, req: Request, net: FetchOutcome, origin: string)
    requires req.verb == "GET" && net.Fetched?
    ensures HandleFetch(s, req, net, origin).served.answer.Respond?
  {
  }

  /** Offline, a request whose entry is in its partition is answered with that entry, on every route. */
  lemma WarmEntryAnswersOffline(s: Storage, req: Request, origin: string, cached: Response)
    requires req.verb == "GET"
    requires Lookup(s, PartitionFor(Classify(req)), req.url) == Some(cached)
    ensures HandleFetch(s, req, NetworkError, origin).served.answer == Respond(cached)
  {
  }

  /** Offline, an API request is always answered: from the cache, or with the 503 offline response. */
  lemma OfflineApiAnswered(s: Storage, req: Request, origin: string)
    requires req.verb == "GET" && Classify(req) == Api
    ensures var a := HandleFetch(s, req, NetworkError, origin).served.answer;
      a.Respond? && (Lookup(s, DynamicCache, req.url).None? ==> a.response == OfflineApiResponse)
  {
  }

  /** An API request is answered by the network whenever it answers, even over a stored entry. */
  lemma ApiAnswersNetworkFirst(s: Storage, req: Request, net: FetchOutcome, origin: string)
    requires req.verb == "GET" && Classify(req) == Api && net.Fetched?
    ensures HandleFetch(s, req, net, origin).served.answer == Respond(net.response)
  {
  }

  /**
   * Any other GET request is answered from the dynamic partition when it
   * holds an entry, whatever the network does; a miss gets the network
   * response, or `undefined` offline.
   */
  lemma OtherAnswersStale(s: Storage, req: Request, net: FetchOutcome, origin: string)
    requires req.verb == "GET" && Classify(req) == Other
    ensures var a := HandleFetch(s, req, net, origin).served.answer;
      && (Lookup(s, DynamicCache, req.url).Some? ==> a == Respond(Lookup(s, DynamicCache, req.url).value))
      && (Lookup(s, DynamicCache, req.url).None? && net.Fetched? ==> a == Respond(net.response))
      && (Lookup(s, DynamicCache, req.url).None? && net.NetworkError? ==> a == Undefined)
  {
  }

  /**
   * A static or image request missing from its partition gets the network
   * response, or offline the fallback evaluated over the opened partition.
   */
  lemma CacheFirstRouteMiss(s: Storage, req: Request, net: FetchOutcome, origin: string)
    requires req.verb == "GET" && (Classify(req) == Static || Classify(req) == Image)
    requires Lookup(s, PartitionFor(Classify(req)), req.url).None?
    ensures var a := HandleFetch(s, req, net, origin).served.answer;
      && (net.Fetched? ==> a == Respond(net.response))
      && (net.NetworkError? ==> a == OfflineFallback(Open(s, PartitionFor(Classify(req))), req, origin))
  {
  }

  /** `fetch` is skipped exactly for a cache-first route whose entry is already stored. */
  lemma FetchSkippedOnlyOnCacheFirstHit(s: Storage, req: Request, net: FetchOutcome, origin: string)
    requires req.verb == "GET"
    ensures !HandleFetch(s, req, net, origin).served.fetched <==>
      (Classify(req) == Static || Classify(req) == Image) && Lookup(s, PartitionFor(Classify(req)), req.url).Some?
  {
  }
}

=== FILE: generations.dfy ===
/** The cache generation registry: the worker's versioned cache names and its pre-cache manifest. */
module Generations {

  /** The version marker the worker reports; no partition is opened under this name. */
  const CacheName: string := "shoppwa-v1"

  const StaticCache: string := "shoppwa-static-v1"
  const DynamicCache: string := "shoppwa-dynamic-v1"
  const ImageCache: string := "shoppwa-images-v1"

  /** The page served to a document request that cannot be fetched. */
  const ShellPath: string := "/index.html"

  /** The app shell, pre-cached at install. */
  const StaticFiles: seq<string> := [
    "/",
    ShellPath,
    "/styles.css",
    "/app.js",
    "/manifest.json",
    "/icon-192x192.png",
    "/icon-512x512.png"
  ]

  lemma ShellIsPrecached()
    ensures ShellPath in StaticFiles
  {
    assert StaticFiles[1] == ShellPath;
  }

  /** No manifest entry is listed twice. */
  lemma StaticFilesDistinct()
    ensures forall i, j :: 0 <= i < j < |StaticFiles| ==> StaticFiles[i] != StaticFiles[j]
  {
  }

  /** One of the three partitions of this generation; any other cache name is stale. */
  predicate IsCurrent(name: string) {
    name == StaticCache || name == DynamicCache || name == ImageCache
  }
}

=== FILE: http.dfy ===
/** The Fetch values the worker handles: requests, responses, fetch outcomes. */
module Http {

  /** An absolute URL, as `request.url` spells it. */
  type Url = string

  /** The parts of a Fetch `Request` the worker reads; `verb` is `request.method`. */
  datatype Request = Request(url: Url, verb: string, destination: string)

  datatype Response = Response(status: int, headers: map<string, string>, body: string)

  /** The "ok status" of the WHATWG Fetch Standard: a status in 200 to 299. */
  predicate Ok(r: Response) {
    200 <= r.status <= 299
  }

  /**
   * What `fetch` settles to: a response of any status, or a rejection
   * with a network error.
   */
  datatype FetchOutcome = Fetched(response: Response) | NetworkError

  /** The fetch resolved with an ok response (`response.ok`). */
  predicate Acknowledged(o: FetchOutcome) {
    o.Fetched? && Ok(o.response)
  }

  /** Resolves an absolute-path reference such as `/index.html` against the worker's origin. */
  function Resolve(origin: string, path: string): Url {
    origin + path
  }
}

=== FILE: lifecycle.dfy ===
/**
 * The worker's lifecycle handlers: `install` pre-caches the app shell,
 * `activate` deletes stale cache generations and then claims the open
 * clients, and `message` handles the two control messages.
 */
module Lifecycle {
  import opened Wrappers
  import opened Http
  import opened CacheStorage
  import opened Generations

  /** Each of `paths` resolved against `origin`, in order. */
  function ResolveAll(origin: string, paths: seq<string>): (r: seq<Url>)
    ensures |r| == |paths|
    ensures forall i :: 0 <= i < |r| ==> r[i] == Resolve(origin, paths[i])
    decreases |paths|
  {
    if |paths| == 0 then []
    else [Resolve(origin, paths[0])] + ResolveAll(origin, paths[1..])
  }

  /** The manifest entries as the absolute URLs `cache.addAll` requests and stores them under. */
  function ManifestUrls(origin: string): seq<Url> {
    ResolveAll(origin, StaticFiles)
  }

  /**
   * The pre-cache batch holds no request twice, for every origin. A batch
   * with a duplicate request would make `cache.addAll` reject (the batch
   * cache operations of the Service Workers specification refuse
   * duplicate requests), so install could never complete.
   */
  lemma ManifestUrlsDistinct(origin: string)
    ensures forall i, j :: 0 <= i < j < |ManifestUrls(origin)| ==> ManifestUrls(origin)[i] != ManifestUrls(origin)[j]
  {
    var urls := ManifestUrls(origin);
    StaticFilesDistinct();
    forall i, j | 0 <= i < j < |urls|
      ensures urls[i] != urls[j]
    {
      assert urls[i][|origin|..] == StaticFiles[i];
      assert urls[j][|origin|..] == StaticFiles[j];
    }
  }

  /** Every URL of `urls` is fetched with an ok response. */
  predicate AllAcknowledged(urls: seq<Url>, net: Url -> FetchOutcome) {
    forall u :: u in urls ==> Acknowledged(net(u))
  }

  /** The writes of a successful `cache.addAll(urls)` into the opened partition `name`. */
  function PutAll(s: Storage, name: string, urls: seq<Url>, net: Url -> FetchOutcome): (r: Storage)
    requires name in Names(s)
    requires AllAcknowledged(urls, net)
    ensures Names(r) == Names(s)
    ensures forall n, k :: Lookup(r, n, k) ==
                           (if n == name && k in urls then Some(net(k).response) else Lookup(s, n, k))
    decreases |urls|
  {
    if |urls| == 0 then s
    else
      var r := PutAll(Put(s, name, urls[0], net(urls[0]).response), name, urls[1..], net);
      assert forall u :: u in urls <==> u == urls[0] || u in urls[1..];
      r
  }

  datatype InstallOutcome = InstallOutcome(storage: Storage, skipWaiting: bool)

  /**
   * `install`: the static partition is opened, then filled by `addAll`,
   * which stores all of the manifest or none of it: one failed fetch or
   * non-ok response rejects it. `skipWaiting` is requested only after a
   * complete pre-cache; a rejection is logged and swallowed.
   */
  function Install(s: Storage, origin: string, net: Url -> FetchOutcome): (r: InstallOutcome)
    ensures Names(r.storage) == Names(Open(s, StaticCache))
    ensures r.skipWaiting <==> AllAcknowledged(ManifestUrls(origin), net)
    ensures r.skipWaiting ==>
      forall n, k :: Lookup(r.storage, n, k) ==
                     (if n == StaticCache && k in ManifestUrls(origin) then Some(net(k).response) else Lookup(s, n, k))
    ensures !r.skipWaiting ==> SameEntries(s, r.storage)
  {
    var withStatic := Open(s, StaticCache);
    var urls := ManifestUrls(origin);
    if AllAcknowledged(urls, net) then
      InstallOutcome(PutAll(withStatic, StaticCache, urls, net), true)
    else
      InstallOutcome(withStatic, false)
  }

  /** Installing again with the same network outcomes changes nothing any lookup can see. */
  lemma InstallIdempotent(s: Storage, origin: string, net: Url -> FetchOutcome)
    ensures var once := Install(s, origin, net);
      var twice := Install(once.storage, origin, net);
      twice.skipWaiting == once.skipWaiting
      && Names(twice.storage) == Names(once.storage)
      && SameEntries(once.storage, twice.storage)
  {
    var once := Install(s, origin, net);
    var twice := Install(once.storage, origin, net);
    assert StaticCache in Names(once.storage);
    if once.skipWaiting {
      forall n, k
        ensures Lookup(once.storage, n, k) == Lookup(twice.storage, n, k)
      {
        if !(n == StaticCache && k in ManifestUrls(origin)) {
          assert Lookup(twice.storage, n, k) == Lookup(once.storage, n, k);
        }
      }
    }
  }

  /** A repeated install with a fully populated static partition keeps exactly its keys, whatever the network does. */
  lemma ReinstallKeepsShellKeys(s: Storage, origin: string, net1: Url -> FetchOutcome, net2: Url -> FetchOutcome, k: Url)
    requires Install(s, origin, net1).skipWaiting
    ensures var once := Install(s, origin, net1).storage;
      (Lookup(Install(once, origin, net2).storage, StaticCache, k).Some? <==> Lookup(once, StaticCache, k).Some?)
  {
    var once := Install(s, origin, net1).storage;
    if Install(once, origin, net2).skipWaiting && k in ManifestUrls(origin) {
      assert Lookup(once, StaticCache, k).Some?;
    }
  }

  datatype Effect = DeleteCache(name: string) | ClaimClients

  datatype ActivateOutcome = ActivateOutcome(storage: Storage, effects: seq<Effect>)

  /** The names of `names` that are not a current partition, in order. */
  function StaleNames(names: seq<string>): (r: seq<string>)
    ensures forall n :: n in r <==> n in names && !IsCurrent(n)
    decreases |names|
  {
    if |names| == 0 then []
    else (if IsCurrent(names[0]) then [] else [names[0]]) + StaleNames(names[1..])
  }

  /** The storage after every stale partition has been deleted. */
  function Retain(s: Storage): (r: Storage)
    ensures forall n :: n in Names(r) <==> n in Names(s) && IsCurrent(n)
    ensures forall n :: Find(r, n) == if IsCurrent(n) then Find(s, n) else None
    decreases |s|
  {
    if |s| == 0 then []
    else
      var t := Retain(s[1..]);
      assert s == [s[0]] + s[1..];
      RetainNamesCons(s[0], s[1..], t);
      RetainFindCons(s[0], s[1..], t);
      if IsCurrent(s[0].name) then [s[0]] + t else t
  }

  lemma RetainNamesCons(p: Partition, rest: Storage, t: Storage)
    requires forall n :: n in Names(t) <==> n in Names(rest) && IsCurrent(n)
    ensures var r := if IsCurrent(p.name) then [p] + t else t;
      forall n :: n in Names(r) <==> n in Names([p] + rest) && IsCurrent(n)
  {
    NamesCons(p, rest);
    NamesCons(p, t);
  }

  lemma RetainFindCons(p: Partition, rest: Storage, t: Storage)
    requires forall n :: Find(t, n) == if IsCurrent(n) then Find(rest, n) else None
    ensures var r := if IsCurrent(p.name) then [p] + t else t;
      forall n :: Find(r, n) == if IsCurrent(n) then Find([p] + rest, n) else None
  {
    FindConsAll(p, rest);
    if IsCurrent(p.name) {
      FindConsAll(p, t);
    }
  }

  /** Deleting the stale caches keeps the names distinct. */
  lemma {:induction false} RetainKeepsDistinct(s: Storage)
    requires DistinctNames(s)
    ensures DistinctNames(Retain(s))
    decreases |s|
  {
    if |s| > 0 {
      var tail := s[1..];
      NamesCons(s[0], tail);
      assert s == [s[0]] + tail;
      assert forall i :: 0 <= i < |Names(tail)| ==> Names(tail)[i] == Names(s)[i + 1];
      RetainKeepsDistinct(tail);
      var t := Retain(tail);
      if IsCurrent(s[0].name) {
        NamesCons(s[0], t);
        assert s[0].name !in Names(tail);
        assert s[0].name !in Names(t);
        var r := Names([s[0]] + t);
        assert forall i :: 0 < i < |r| ==> r[i] == Names(t)[i - 1];
      }
    }
  }

  lemma FindConsAll(p: Partition, t: Storage)
    ensures forall n :: Find([p] + t, n) == if p.name == n then Some(p.entries) else Find(t, n)
  {
    forall n
      ensures Find([p] + t, n) == if p.name == n then Some(p.entries) else Find(t, n)
    {
      FindCons(p, t, n);
    }
  }

  /**
   * `activate`: `caches.delete` for every stale name, and only once all
   * deletions have completed, `clients.claim()`.
   */
  function Activate(s: Storage): (r: ActivateOutcome)
    ensures forall n :: n in Names(r.storage) <==> n in Names(s) && IsCurrent(n)
    ensures forall n, k :: Lookup(r.storage, n, k) == if IsCurrent(n) then Lookup(s, n, k) else None
    ensures |r.effects| > 0 && r.effects[|r.effects| - 1] == ClaimClients
    ensures forall i :: 0 <= i < |r.effects| - 1 ==>
      r.effects[i].DeleteCache? && r.effects[i].name in Names(s) && !IsCurrent(r.effects[i].name)
    ensures forall n :: n in Names(s) && !IsCurrent(n) ==> DeleteCache(n) in r.effects
  {
    var stale := StaleNames(Names(s));
    var deletes := seq(|stale|, i requires 0 <= i < |stale| => DeleteCache(stale[i]));
    var effects := deletes + [ClaimClients];
    assert forall n :: n in stale ==> DeleteCache(n) in deletes by {
      forall n | n in stale
        ensures DeleteCache(n) in deletes
      {
        var i :| 0 <= i < |stale| && stale[i] == n;
        assert deletes[i] == DeleteCache(n);
      }
    }
    ActivateOutcome(Retain(s), effects)
  }

  /** Activation never leaves two caches under one name. */
  lemma ActivateKeepsDistinct(s: Storage)
    requires DistinctNames(s)
    ensures DistinctNames(Activate(s).storage)
  {
    RetainKeepsDistinct(s);
  }

  /** The cache named by the worker's version marker does not survive activation. */
  lemma ActivateDeletesVersionMarkerCache(s: Storage)
    ensures CacheName !in Names(Activate(s).storage)
    ensures CacheName in Names(s) ==> DeleteCache(CacheName) in Activate(s).effects
  {
  }

  /** A complete install leaves each manifest URL holding the ok response fetched for it. */
  lemma InstalledManifestEntry(s: Storage, origin: string, net: Url -> FetchOutcome, path: string)
    requires Install(s, origin, net).skipWaiting && path in StaticFiles
    ensures var url := Resolve(origin, path);
      Acknowledged(net(url))
      && Lookup(Install(s, origin, net).storage, StaticCache, url) == Some(net(url).response)
  {
    var urls := ManifestUrls(origin);
    var url := Resolve(origin, path);
    var i :| 0 <= i < |StaticFiles| && StaticFiles[i] == path;
    assert urls[i] == url;
    assert url in urls;
  }

  /** Activation after a complete install keeps every pre-cached manifest entry. */
  lemma ActivateKeepsInstalledShell(s: Storage, origin: string, net: Url -> FetchOutcome, i: nat)
    requires Install(s, origin, net).skipWaiting && i < |StaticFiles|
    ensures var url := Resolve(origin, StaticFiles[i]);
      Acknowledged(net(url))
      && Lookup(Activate(Install(s, origin, net).storage).storage, StaticCache, url) == Some(net(url).response)
  {
    InstalledManifestEntry(s, origin, net, StaticFiles[i]);
  }

  /** The reply channel of a `message` event after a `GET_VERSION`. */
  datatype Reply = NoReply | Version(name: string) | PortMissing

  datatype MessageOutcome = MessageOutcome(skipWaiting: bool, reply: Reply)

  /**
   * `message`: `kind` is the `type` field of the data, `None` when the data
   * is absent or has none. `GET_VERSION` posts the version marker to the
   * first port; with no port the handler throws before posting.
   */
  function HandleMessage(kind: Option<string>, hasPort: bool): (r: MessageOutcome)
    ensures r.skipWaiting <==> kind == Some("SKIP_WAITING")
    ensures kind == Some("GET_VERSION") && hasPort ==> r.reply == Version(CacheName)
    ensures kind == Some("GET_VERSION") && !hasPort ==> r.reply == PortMissing
    ensures kind != Some("GET_VERSION") ==> r.reply == NoReply
  {
    var skip := kind == Some("SKIP_WAITING");
    if kind == Some("GET_VERSION") then
      MessageOutcome(skip, if hasPort then Version(CacheName) else PortMissing)
    else
      MessageOutcome(skip, NoReply)
  }
}

=== FILE: local_storage.dfy ===
/** A `localStorage` item as the code reads it back through `JSON.parse`. */
module LocalStorage {

  /**
   * `Missing` for no item or an empty string (both falsy), `Unparseable`
   * for text on which `JSON.parse` throws, `Parsed(v)` for text that
   * parses to `v`.
   */
  datatype Stored<T> = Missing | Unparseable | Parsed(value: T)
}

=== FILE: notifications.dfy ===
/**
 * The notification dispatcher: the notification built from a push
 * payload merged over defaults, and the routing of a click on it.
 */
module Notifications {
  import opened Wrappers
  import opened Strings

  /** The fields of a shown notification that carry data; the fixed display options are not modelled. */
  datatype Notice = Notice(title: string, body: string, icon: string, badge: string, tag: string)

  const AppIcon: string := "/icon-192x192.png"

  const PushDefaults: map<string, string> := map[
    "title" := "ShopPWA Notification",
    "body" := "You have a new notification",
    "icon" := AppIcon,
    "badge" := AppIcon,
    "tag" := "default"
  ]

  /**
   * `event.data` of a push: absent, not JSON, or a JSON value whose own
   * keys are `fields`. A JSON value that is not an object spreads no
   * key of a notification field and is an `Object` with none of them.
   */
  datatype PushData = NoData | Unparseable | Object(fields: map<string, string>)

  /** `{ ...defaults, ...data }`: each payload key overrides its default. */
  function PushFields(data: PushData): (r: map<string, string>)
    ensures r.Keys == PushDefaults.Keys + (if data.Object? then data.fields.Keys else {})
    ensures forall k :: k in r ==> r[k] == if data.Object? && k in data.fields then data.fields[k] else PushDefaults[k]
  {
    match data
    case Object(fields) => PushDefaults + fields
    case _ => PushDefaults
  }

  /** The value a push notification shows for `key`: the payload's if it has one, else the default. */
  function Field(data: PushData, key: string): string
    requires key in PushDefaults
  {
    if data.Object? && key in data.fields then data.fields[key] else PushDefaults[key]
  }

  /** The notification a push event shows. */
  function PushNotice(data: PushData): (n: Notice)
    ensures n == Notice(Field(data, "title"), Field(data, "body"), Field(data, "icon"), Field(data, "badge"), Field(data, "tag"))
  {
    var f := PushFields(data);
    Notice(f["title"], f["body"], f["icon"], f["badge"], f["tag"])
  }

  /** A missing or unparseable payload, or one that sets no field, shows exactly the defaults. */
  lemma NoPayloadShowsDefaults(data: PushData)
    requires data.NoData? || data.Unparseable? || (data.Object? && data.fields.Keys !! PushDefaults.Keys)
    ensures !data.Object? ==> PushFields(data) == PushDefaults
    ensures PushNotice(data) == Notice("ShopPWA Notification", "You have a new notification", AppIcon, AppIcon, "default")
  {
  }

  /** What the `notificationclick` handler does after closing the notification. */
  datatype ClickEffect = FocusClient(index: nat) | OpenWindow(url: string) | NoEffect

  /** The first window client, in `matchAll` order, whose URL mentions the worker's origin. */
  function FirstAppClient(clientUrls: seq<string>, origin: string, from: nat): (r: Option<nat>)
    requires from <= |clientUrls|
    ensures r.Some? ==> from <= r.value < |clientUrls| && Contains(clientUrls[r.value], origin)
    ensures r.Some? ==> forall j :: from <= j < r.value ==> !Contains(clientUrls[j], origin)
    ensures r.None? ==> forall j :: from <= j < |clientUrls| ==> !Contains(clientUrls[j], origin)
    decreases |clientUrls| - from
  {
    if from == |clientUrls| then None
    else if Contains(clientUrls[from], origin) then Some(from)
    else FirstAppClient(clientUrls, origin, from + 1)
  }

  /**
   * `notificationclick`: the `view` action and the default click (empty
   * action) focus the first app window, or open `/` when there is none;
   * every other action only closes the notification.
   */
  function NotificationClick(action: string, clientUrls: seq<string>, origin: string): (r: ClickEffect)
    ensures (action == "view" || action == "") && (exists i :: 0 <= i < |clientUrls| && Contains(clientUrls[i], origin)) ==>
      r.FocusClient? && r.index < |clientUrls| && Contains(clientUrls[r.index], origin)
      && forall j :: 0 <= j < r.index ==> !Contains(clientUrls[j], origin)
    ensures (action == "view" || action == "") && (forall i :: 0 <= i < |clientUrls| ==> !Contains(clientUrls[i], origin)) ==>
      r == OpenWindow("/")
    ensures action != "view" && action != "" ==> r == NoEffect
  {
    if action == "view" || action == "" then
      match FirstAppClient(clientUrls, origin, 0)
      case Some(i) => FocusClient(i)
      case None => OpenWindow("/")
    else
      NoEffect
  }
}

=== FILE: offline.dfy ===
/**
 * What the worker's handlers guarantee together, across events: the
 * app shell cached at install answers offline after activation, an
 * offline document falls back to the cached shell, and the product
 * list refreshed by `content-sync` answers the API offline.
 */
module Offline {
  import opened Wrappers
  import opened Http
  import opened CacheStorage
  import opened Generations
  import opened Classifier
  import opened Strategies
  import opened FetchHandler
  import opened Lifecycle
  import opened BackgroundSync
  import Strings

  /** A static URL stored in the static partition is answered offline with the stored response. */
  lemma StaticHitOffline(st: Storage, url: Url, destination: string, origin: string, resp: Response)
    requires IsStaticFile(url)
    requires Lookup(st, StaticCache, url) == Some(resp)
    ensures HandleFetch(st, Request(url, "GET", destination), NetworkError, origin).served.answer == Respond(resp)
  {
    WarmEntryAnswersOffline(st, Request(url, "GET", destination), origin, resp);
  }

  /** Every pre-cached URL is routed to the static partition, whatever the request's destination. */
  lemma ManifestUrlsAreStatic(origin: string, i: nat, destination: string)
    requires i < |StaticFiles|
    ensures Classify(Request(ManifestUrls(origin)[i], "GET", destination)) == Static
  {
    ManifestUrlIsStatic(origin, i, "GET", destination);
  }

  /**
   * After a complete install and an activation, every manifest URL is
   * answered offline with the response cached at install, whatever the
   * request's destination.
   */
  lemma InstalledShellServedOffline(s: Storage, origin: string, net: Url -> FetchOutcome, i: nat, destination: string)
    requires Install(s, origin, net).skipWaiting && i < |StaticFiles|
    ensures var active := Activate(Install(s, origin, net).storage).storage;
      var url := Resolve(origin, StaticFiles[i]);
      Acknowledged(net(url))
      && HandleFetch(active, Request(url, "GET", destination), NetworkError, origin).served.answer
         == Respond(net(url).response)
  {
    var active := Activate(Install(s, origin, net).storage).storage;
    var url := Resolve(origin, StaticFiles[i]);
    assert ManifestUrls(origin)[i] == url;
    ActivateKeepsInstalledShell(s, origin, net, i);
    Strings.EndsWithAppend(origin, StaticFiles[i]);
    StaticHitOffline(active, url, destination, origin, net(url).response);
  }

  /** A complete install stores the shell page in the static partition. */
  lemma InstallCachesShell(s: Storage, origin: string, net: Url -> FetchOutcome)
    requires Install(s, origin, net).skipWaiting
    ensures Lookup(Install(s, origin, net).storage, StaticCache, Resolve(origin, ShellPath)).Some?
  {
    ShellIsPrecached();
    InstalledManifestEntry(s, origin, net, ShellPath);
  }

  /** With the shell page in the static partition, an offline document request on a cache-first route is answered. */
  lemma CacheFirstDocumentAnswered(st: Storage, req: Request, part: string, origin: string)
    requires req.destination == "document"
    requires Lookup(st, StaticCache, Resolve(origin, ShellPath)).Some?
    ensures CacheFirst(st, req, part, NetworkError, origin).answer.Respond?
  {
    var withPart := Open(st, part);
    assert Lookup(withPart, StaticCache, Resolve(origin, ShellPath)).Some?;
    LookupImpliesMatchAny(withPart, StaticCache, Resolve(origin, ShellPath));
  }

  /**
   * After a complete install, a document request on a cache-first route
   * that cannot be fetched is answered, from its partition or with a
   * cached copy of the shell page, and never with `undefined`.
   */
  lemma OfflineDocumentGetsShell(s: Storage, origin: string, net: Url -> FetchOutcome, req: Request)
    requires Install(s, origin, net).skipWaiting
    requires req.verb == "GET" && req.destination == "document"
    requires Classify(req) == Static || Classify(req) == Image
    ensures HandleFetch(Install(s, origin, net).storage, req, NetworkError, origin).served.answer.Respond?
  {
    var installed := Install(s, origin, net).storage;
    InstallCachesShell(s, origin, net);
    CacheFirstDocumentAnswered(installed, req, PartitionFor(Classify(req)), origin);
  }

  /**
   * After a `content-sync` stored a product list, an offline API request
   * for it is answered with that list rather than the 503 response.
   */
  lemma SyncedProductsServedOffline(s: Storage, origin: string, net: FetchOutcome, products: string, destination: string)
    requires Acknowledged(net)
    requires Classify(Request(ProductsUrl(origin), "GET", destination)) == Api
    ensures var synced := PeriodicSync(s, origin, "content-sync", net, Products(products));
      HandleFetch(synced, Request(ProductsUrl(origin), "GET", destination), NetworkError, origin).served.answer
        == Respond(TextResponse(products))
  {
    var synced := PeriodicSync(s, origin, "content-sync", net, Products(products));
    var req := Request(ProductsUrl(origin), "GET", destination);
    assert Lookup(synced, DynamicCache, req.url) == Some(TextResponse(products));
    WarmEntryAnswersOffline(synced, req, origin, TextResponse(products));
  }
}

=== FILE: startup.dfy ===
/** `initializeApp`: the product list and cart read from local storage at start-up. */
module Startup {
  import opened Wrappers
  import opened Catalog
  import opened Cart
  import opened LocalStorage

  /**
   * The session after start-up, the product list written back to
   * storage if any, and whether `initializeApp` threw (leaving the
   * remaining state at its initial `[]`).
   */
  datatype Session = Session(products: seq<Product>, cart: Cart, persisted: Option<seq<Product>>, threw: bool)

  function InitializeApp(savedProducts: Stored<seq<Product>>, savedCart: Stored<Cart>): (r: Session)
    ensures savedProducts.Missing? ==> r.products == SampleProducts && r.persisted == Some(SampleProducts)
    ensures !savedProducts.Missing? ==> r.persisted == None
    ensures savedProducts.Unparseable? ==> r.threw && r.products == [] && r.cart == []
    ensures savedProducts.Parsed? ==> r.products == savedProducts.value
    ensures r.threw <==> savedProducts.Unparseable? || savedCart.Unparseable?
    ensures !r.threw && savedCart.Parsed? ==> r.cart == savedCart.value
    ensures savedCart.Missing? ==> r.cart == []
    ensures savedCart.Unparseable? ==> r.cart == []
  {
    match savedProducts
    case Unparseable => Session([], [], None, true)
    case Missing => LoadCart(SampleProducts, Some(SampleProducts), savedCart)
    case Parsed(ps) => LoadCart(ps, None, savedCart)
  }

  /** The cart half of `initializeApp`, once the product list is settled. */
  function LoadCart(products: seq<Product>, persisted: Option<seq<Product>>, savedCart: Stored<Cart>): Session {
    match savedCart
    case Missing => Session(products, [], persisted, false)
    case Unparseable => Session(products, [], persisted, true)
    case Parsed(c) => Session(products, c, persisted, false)
  }

  /**
   * A restart reads back the product list the first start wrote: it
   * starts with the same products and cart, and writes nothing again.
   */
  lemma RestartReadsPersisted(savedCart: Stored<Cart>)
    ensures var first := InitializeApp(Missing, savedCart);
      var second := InitializeApp(Parsed(first.persisted.value), savedCart);
      second.products == first.products && second.cart == first.cart
      && second.threw == first.threw && second.persisted == None
  {
  }

  /** The sample catalogue has one product per id 1 to 6. */
  lemma SampleIdsDistinct()
    ensures forall i, j :: 0 <= i < j < |SampleProducts| ==> SampleProducts[i].id != SampleProducts[j].id
    ensures forall i :: 0 <= i < |SampleProducts| ==> SampleProducts[i].id == i + 1
  {
  }

  /**
   * On a fresh start every sample product can be added, and the first
   * addition gives a one-line cart of quantity 1.
   */
  lemma FreshStartAddsSample(id: ProductId)
    requires 1 <= id <= 6
    ensures var session := InitializeApp(Missing, Missing);
      AddToCart(session.products, session.cart, id) == [CartItem(SampleProducts[id - 1], 1)]
  {
    SampleIdsDistinct();
    assert SampleProducts[id - 1].id == id;
  }
}

=== FILE: strategies.dfy ===
/**
 * The three fetch strategies of the worker. Each is one sequential step
 * over the cache storage, the request, and the outcome the network would
 * give for that request: it returns what the strategy's promise settles
 * to, the storage after the step, and whether `fetch` was called.
 */
module Strategies {
  import opened Wrappers
  import opened Http
  import opened CacheStorage
  import opened Classifier
  import opened Generations

  /**
   * What the promise handed to `event.respondWith` settles to: a response,
   * `undefined` (which the browser turns into a network error), or a
   * rejection.
   */
  datatype Answer = Respond(response: Response) | Undefined | Rejected

  datatype Served = Served(answer: Answer, storage: Storage, fetched: bool)

  const PlaceholderSvg: string :=
    "<svg xmlns=\"http://www.w3.org/2000/svg\" width=\"200\" height=\"200\" viewBox=\"0 0 200 200\"><rect width=\"200\" height=\"200\" fill=\"#f0f0f0\"/><text x=\"100\" y=\"100\" text-anchor=\"middle\" dy=\".3em\" font-family=\"Arial\" font-size=\"14\" fill=\"#999\">Image Unavailable</text></svg>"

  /** The generated image served when an image cannot be fetched; a `Response` defaults to status 200. */
  const ImagePlaceholder: Response :=
    Response(200, map["Content-Type" := "image/svg+xml"], PlaceholderSvg)

  const OfflineBody: string :=
    "{\"error\":\"Offline\",\"message\":\"This feature is not available offline\"}"

  /** 503 Service Unavailable, section 15.6.4 of RFC 9110. */
  const ServiceUnavailable: int := 503

  const OfflineApiResponse: Response :=
    Response(ServiceUnavailable, map["Content-Type" := "application/json"], OfflineBody)

  /** The catch branch of `cacheFirst`, evaluated against the storage `s` at that point. */
  function OfflineFallback(s: Storage, req: Request, origin: string): (a: Answer)
    ensures req.destination == "document" ==> a != Rejected
    ensures req.destination == "document" ==>
      (a.Respond? <==> MatchAny(s, Resolve(origin, ShellPath)).Some?)
    ensures req.destination == "document" && a.Respond? ==>
      a.response == MatchAny(s, Resolve(origin, ShellPath)).value
    ensures req.destination != "document" && IsImageRequest(req) ==> a == Respond(ImagePlaceholder)
    ensures req.destination != "document" && !IsImageRequest(req) ==> a == Rejected
  {
    if req.destination == "document" then
      match MatchAny(s, Resolve(origin, ShellPath))
      case Some(shell) => Respond(shell)
      case None => Undefined
    else if IsImageRequest(req) then
      Respond(ImagePlaceholder)
    else
      Rejected
  }

  /**
   * `cacheFirst`: a stored entry is returned without calling `fetch`;
   * otherwise the network response is returned as it is and stored only
   * when ok; a network error falls back to `OfflineFallback`.
   */
  function CacheFirst(s: Storage, req: Request, part: string, net: FetchOutcome, origin: string): (r: Served)
    ensures Names(r.storage) == Names(Open(s, part))
    ensures r.fetched <==> Lookup(s, part, req.url).None?
    ensures Lookup(s, part, req.url).Some? ==> r.answer == Respond(Lookup(s, part, req.url).value)
    ensures Lookup(s, part, req.url).None? && net.Fetched? ==> r.answer == Respond(net.response)
    ensures Lookup(s, part, req.url).None? && net.NetworkError? ==>
      r.answer == OfflineFallback(Open(s, part), req, origin)
    ensures Lookup(s, part, req.url).None? && Acknowledged(net) ==>
      StoredOnly(s, r.storage, part, req.url, net.response)
    ensures Lookup(s, part, req.url).Some? || !Acknowledged(net) ==> SameEntries(s, r.storage)
  {
    var withPart := Open(s, part);
    match Lookup(withPart, part, req.url)
    case Some(cached) => Served(Respond(cached), withPart, false)
    case None =>
      match net
      case Fetched(resp) =>
        if Ok(resp) then Served(Respond(resp), Put(withPart, part, req.url, resp), true)
        else Served(Respond(resp), withPart, true)
      case NetworkError => Served(OfflineFallback(withPart, req, origin), withPart, true)
  }

  /**
   * `networkFirst`: the network response is returned as it is, and stored
   * exactly when ok; on a network error the stored entry is returned, else
   * the offline JSON response for an API URL, else the error propagates.
   */
  function NetworkFirst(s: Storage, req: Request, part: string, net: FetchOutcome): (r: Served)
    ensures r.fetched
    ensures net.Fetched? ==> r.answer == Respond(net.response)
    ensures Acknowledged(net) ==>
      StoredOnly(s, r.storage, part, req.url, net.response) && Names(r.storage) == Names(Open(s, part))
    ensures net.Fetched? && !Ok(net.response) ==> r.storage == s
    ensures net.NetworkError? ==> SameEntries(s, r.storage) && Names(r.storage) == Names(Open(s, part))
    ensures net.NetworkError? && Lookup(s, part, req.url).Some? ==>
      r.answer == Respond(Lookup(s, part, req.url).value)
    ensures net.NetworkError? && Lookup(s, part, req.url).None? && IsApiRequest(req.url) ==>
      r.answer == Respond(OfflineApiResponse)
    ensures net.NetworkError? && Lookup(s, part, req.url).None? && !IsApiRequest(req.url) ==>
      r.answer == Rejected
  {
    match net
    case Fetched(resp) =>
      if Ok(resp) then Served(Respond(resp), Put(Open(s, part), part, req.url, resp), true)
      else Served(Respond(resp), s, true)
    case NetworkError =>
      var withPart := Open(s, part);
      match Lookup(withPart, part, req.url)
      case Some(cached) => Served(Respond(cached), withPart, true)
      case None =>
        if IsApiRequest(req.url) then Served(Respond(OfflineApiResponse), withPart, true)
        else Served(Rejected, withPart, true)
  }

  /**
   * `staleWhileRevalidate`: `fetch` is always called and an ok response is
   * always stored; the caller gets the stored entry if there was one,
   * else the network response, else `undefined`. The background store is
   * applied within the same step.
   */
  function StaleWhileRevalidate(s: Storage, req: Request, part: string, net: FetchOutcome): (r: Served)
    ensures r.fetched
    ensures Names(r.storage) == Names(Open(s, part))
    ensures Lookup(s, part, req.url).Some? ==> r.answer == Respond(Lookup(s, part, req.url).value)
    ensures Lookup(s, part, req.url).None? && net.Fetched? ==> r.answer == Respond(net.response)
    ensures Lookup(s, part, req.url).None? && net.NetworkError? ==> r.answer == Undefined
    ensures Acknowledged(net) ==> StoredOnly(s, r.storage, part, req.url, net.response)
    ensures !Acknowledged(net) ==> SameEntries(s, r.storage)
  {
    var withPart := Open(s, part);
    var cached := Lookup(withPart, part, req.url);
    var after := if Acknowledged(net) then Put(withPart, part, req.url, net.response) else withPart;
    match cached
    case Some(c) => Served(Respond(c), after, true)
    case None =>
      match net
      case Fetched(resp) => Served(Respond(resp), after, true)
      case NetworkError => Served(Undefined, after, true)
  }

  /** A cache hit in `cacheFirst` does not depend on the network at all. */
  lemma CacheFirstHitIgnoresNetwork(s: Storage, req: Request, part: string, net1: FetchOutcome, net2: FetchOutcome, origin: string)
    requires Lookup(s, part, req.url).Some?
    ensures CacheFirst(s, req, part, net1, origin) == CacheFirst(s, req, part, net2, origin)
  {
  }

  /** A hit in `staleWhileRevalidate` answers the same whatever the network does. */
  lemma StaleHitIgnoresNetworkAnswer(s: Storage, req: Request, part: string, net1: FetchOutcome, net2: FetchOutcome)
    requires Lookup(s, part, req.url).Some?
    ensures StaleWhileRevalidate(s, req, part, net1).answer == StaleWhileRevalidate(s, req, part, net2).answer
  {
  }
}

=== FILE: strings.dfy ===
/**
 * The three JavaScript string predicates the worker routes on:
 * `startsWith`, `endsWith` and `includes`, on strings as sequences of
 * characters.
 */
module Strings {

  /** `s.startsWith(prefix)` */
  predicate StartsWith(s: string, prefix: string) {
    |prefix| <= |s| && s[..|prefix|] == prefix
  }

  /** `s.endsWith(suffix)` */
  predicate EndsWith(s: string, suffix: string) {
    |suffix| <= |s| && s[|s| - |suffix|..] == suffix
  }

  /** `s.includes(sub)`: some suffix of `s` starts with `sub`. */
  predicate Contains(s: string, sub: string)
    decreases |s|
  {
    StartsWith(s, sub) || (|s| > 0 && Contains(s[1..], sub))
  }

  lemma EndsWithAppend(a: string, b: string)
    ensures EndsWith(a + b, b)
  {
    assert (a + b)[|a|..] == b;
  }

  /** An occurrence of `sub` at position `i` of `s` is found by `includes`. */
  lemma {:induction false} ContainsAt(s: string, i: nat, sub: string)
    requires i + |sub| <= |s| && s[i..i + |sub|] == sub
    ensures Contains(s, sub)
    decreases i
  {
    if i == 0 {
      assert s[..|sub|] == s[0..|sub|];
    } else {
      assert s[1..][i - 1..i - 1 + |sub|] == s[i..i + |sub|];
      ContainsAt(s[1..], i - 1, sub);
    }
  }

  lemma ContainsInfix(a: string, sub: string, b: string)
    ensures Contains(a + sub + b, sub)
  {
    var s := a + sub + b;
    assert s[|a|..|a| + |sub|] == sub;
    ContainsAt(s, |a|, sub);
  }

  /** A string that contains `sub` contains every prefix of `sub`. */
  lemma {:induction false} ContainsPrefix(s: string, sub: string, prefix: string)
    requires StartsWith(sub, prefix) && Contains(s, sub)
    ensures Contains(s, prefix)
    decreases |s|
  {
    if StartsWith(s, sub) {
      assert s[..|prefix|] == s[..|sub|][..|prefix|];
    } else {
      ContainsPrefix(s[1..], sub, prefix);
    }
  }
}

=== FILE: wrappers.dfy ===
/** Optional values, for lookups that can miss. */
module Wrappers {

  datatype Option<+T> = None | Some(value: T)
}
